=== FILE: README.md ===
# Silhouette: structure growth and outline tracing

A Dafny model of the puzzle core of a rotation-matching voxel game. A 3D
structure grows one unit cube at a time. The player is shown the flat
silhouette of the structure after a hidden quarter-turn. The model covers
two pieces of the game and proves properties of both:

- **Structure growth** (`Structure.js`). The structure keeps the placed cubes,
  the growth frontier (empty cells next to the structure), the latest cube
  (not yet placed), an integer bounding box, a centre and a diameter.
  `addCube` places the latest cube, adds its empty face neighbours to the
  frontier, draws the next latest cube from the frontier, and widens the box,
  moves the centre and grows the diameter as needed.
- **Silhouettes** (`Silhouette.js` and the tile part of
  `Structure.createSilhouette`). A silhouette is a set of 2D tiles with bounds
  that start at the origin and only widen. `isEqual` compares tile sets. Four
  run-length boundary scans (north, south, east, west) trace the outline as
  merged edge segments. Each segment end sits at a half-integer corner and
  carries a pivot tile chosen by a diagonal-neighbour rule.
  `createSilhouette` projects the latest cube and every placed cube onto the
  screen, centred on the structure's rotated centre, and sets their tiles, the
  first tile set under a key being the one kept.

Files:

- `options.dfy`: `Option`.
- `lattice.dfy`: 3D integer points, face adjacency, boxes.
- `structure.dfy` (module `Structures`): the structure, its operations and
  the invariant `Valid` that every game state keeps.
- `runs.dfy` (module `Runs`): the open/close state machine inside each scan
  line, on a line of boolean tests.
- `silhouette.dfy` (module `Silhouettes`): the silhouette, `set`, `isEqual`
  and the four scans, written once over a `Side`.
- `outline.dfy` (module `Outlines`): what the scans compute.
- `projection.dfy` (module `Projection`): `createSilhouette`, and the
  centring and alignment of the silhouette of a valid structure.

Representation choices:

- **Half units.** Silhouette coordinates (tiles, bounds, corners, pivots) and
  the structure's centre are stored doubled. After centring, tiles sit on a
  half-integer lattice, and this keeps them exact. Neighbouring tiles are
  `Step` = 2 apart, and a corner such as `(x - 0.5, y + 0.5)` is
  `Pt(X - 1, Y + 1)`.
- **Maps as key sequences.** The structure's two maps are sequences of their
  keys in insertion order, which is the order a JavaScript `Map` iterates in.
  Keys are the cells themselves; the source's string keys are canonical for
  integer vectors. The map values (cube objects) carry nothing else the core
  reads.
- **The random pick** in `addCube` is the parameter `draw`, the value
  `Random.randomInteger(0, size - 1)` returned. An empty frontier gives
  `None`. In the source, `randomEntryInMap` returns `null`, `latestCube`
  becomes `undefined`, and `updateBounds` throws.
- **The orientation** is a quarter-turn rotation. Only its first two rows
  matter for the silhouette: which structure axis, with which sign, becomes
  the screen's x and y axis (`Projection.Rotation`).

Details of the code worth stating:

- The frontier is cumulative. It is never cleared, so it holds the empty
  neighbours of every placed cube, not only of the latest one. This is
  `Structures.FrontierIsBoundary`.
- The latest cube is placed into `cubes` only at the next `addCube` call.
- The pivot rule goes the way the code has it. A segment's first corner
  pivots on its own tile when the diagonal neighbour (north-west for north)
  is empty, and on the tile behind it otherwise. Its last corner pivots on
  the tile behind the one past its end when that tile's neighbour across the
  edge is empty, and on that tile otherwise.

Main results:

- `Structures.HistoryIsValid`: every state of a game keeps the invariant.
  The invariant says:
  - cubes and frontier are disjoint and free of repeats;
  - the frontier is exactly the empty face neighbours of the placed cubes;
  - the latest cube touches a placed cube;
  - the bounds are the exact box of the occupied cells;
  - the centre is the box's middle;
  - the diameter is one more than its longest side.
- `Runs.LineRunsExact`: the segments of a scan line are exactly its maximal
  runs of passing tests. No run is left open when the last test fails. Their
  lengths add up to the number of passing tests.
- `Outlines.OutlineExact`: if every tile is a whole number of tiles from the
  lower bound, then a tile edge lies along a segment of its side's scan
  exactly when the tile is filled and its neighbour across the edge is empty.
- `Projection.FootprintCentred`: a valid structure's silhouette has bounds
  exactly minus and plus the structure's spans, and every tile is on the
  lattice the scans walk. `Projection.SilhouetteOutlineExact` combines this
  with `OutlineExact`.

## Model

| member | source | states |
|---|---|---|
| Structures.SetKey | source/game/gameObjects/Structure.js:30-33 | `cubes.set(key, ...)` on the key order: the key set gains `key`, a new key goes last, an existing key keeps its place; keys stay free of repeats, and the size grows by one exactly when `key` was absent |
| Structures.DeleteKey | source/game/gameObjects/Structure.js:40 | `adjacentCubes.delete(key)`: for repeat-free keys, exactly `key` is removed and the size drops by one when it was present |
| Structures.InsertAbsent | source/game/gameObjects/Structure.js:201-213 | the loop adds exactly the candidates absent from both maps, appended after the untouched old frontier, keeping it free of repeats |
| Structures.AddAdjacentCubes | source/game/gameObjects/Structure.js:189-214 | only the frontier changes; it keeps its old entries in order and gains exactly the face neighbours of the latest cube not yet placed |
| Structures.RandomEntryInMap | source/math/Random.js:37-47 | no key exactly when the map is empty, otherwise a key of the map |
| Structures.AddCube | source/game/gameObjects/Structure.js:29-43 | fails exactly when the frontier is empty; places the latest cube under its own key; the new latest cube and every frontier entry come from the extended frontier; from a repeat-free frontier only the picked cell is deleted; the centre moves exactly when the picked cell lies outside the old bounds, and then by the returned vector |
| Structures.UpdateBounds | source/game/gameObjects/Structure.js:224-246 | no movement exactly when the latest cube is inside the box (then nothing changes); otherwise one bound component moves outward by one, the centre moves by the returned vector, the diameter grows by at most one |
| Structures.UpdateNegBound | source/game/gameObjects/Structure.js:257-260 | the lower bound moves by `direction`, the upper bound stays, the centre moves by `direction` (which is returned), the diameter grows by at most one, and nothing else changes |
| Structures.UpdatePosBound | source/game/gameObjects/Structure.js:271-274 | the upper bound moves by `direction`, the lower bound stays, the centre moves by `direction` (which is returned), the diameter grows by at most one, and nothing else changes |
| Structures.MoveCenter | source/game/gameObjects/Structure.js:285-303 | returns half of `direction` (in half units, `direction`), shifts the centre by it, changes nothing else, and grows the diameter by one exactly when some side of the box exceeds it |
| Structures.NewIsValid | source/game/gameObjects/Structure.js:11-20 | the constructor's structure (one cube at the origin, unit diameter) satisfies the invariant |
| Structures.UpdateBoundsCovers | source/game/gameObjects/Structure.js:224-246 | a latest cube next to a cell of the box lies inside the box after one widening, and each bound keeps its value or takes the latest cube's coordinate |
| Structures.AttainsWiden | source/game/gameObjects/Structure.js:224-246 | a box face that keeps its value or takes the new cell's coordinate is still reached by some cell |
| Structures.MaxSpanStep | source/game/gameObjects/Structure.js:285-295 | one face pushed out grows the longest side by zero or one |
| Structures.UpdateBoundsKeepsExact | source/game/gameObjects/Structure.js:224-274 | with the latest cube next to a placed cube, the bounds become the exact box of all occupied cells, the centre its middle, the diameter one more than its longest side |
| Structures.CandidatesNonEmpty | source/game/gameObjects/Structure.js:33-40 | in a valid structure the frontier drawn from is never empty |
| Structures.AddCubeKeepsValid | source/game/gameObjects/Structure.js:29-43 | on a valid structure `addCube` succeeds, appends exactly the previous latest cube (the count grows by one) and keeps the invariant |
| Structures.GrowsKeepsValid | source/game/gameObjects/Structure.js:29-43 | one `addCube` call on a valid structure leaves a valid structure with one more placed cube and distinct occupied cells |
| Structures.HistoryIsValid | source/game/gameObjects/Structure.js:11-43 | after `n` calls of `addCube` the structure satisfies the invariant and holds `n` placed cubes and `n + 1` distinct occupied cells |
| Runs.RowRunsSound | source/game/gameObjects/Silhouette.js:171-201 | every emitted segment is a maximal run of passing tests at or after the pending start |
| Runs.RowRunsOrdered | source/game/gameObjects/Silhouette.js:171-201 | the emitted segments are strictly ordered and separated by a failing test |
| Runs.RowRunsComplete | source/game/gameObjects/Silhouette.js:171-201 | every maximal run at or after the pending start is emitted |
| Runs.RowRunsCover | source/game/gameObjects/Silhouette.js:175-201 | when the last test fails, every passing test lies inside an emitted segment |
| Runs.RowRunsLength | source/game/gameObjects/Silhouette.js:175-201 | when the last test fails, the segment lengths add up to the passing tests counted from the pending start |
| Runs.LineRunsExact | source/game/gameObjects/Silhouette.js:172-201 | a run is emitted exactly when it is maximal, and the runs come in order; with the last test failing, every passing test is covered and the lengths add up to the count of passing tests |
| Silhouettes.New | source/game/gameObjects/Silhouette.js:30-39 | the empty silhouette with bounds at the origin is well formed and its bounds are attained |
| Silhouettes.Set | source/game/gameObjects/Silhouette.js:47-55 | `key` maps to `value` and every other key is unchanged; the bounds widen only as far as `value` needs; the outline stays; well-formedness and attained bounds are kept |
| Silhouettes.IsEqual | source/game/gameObjects/Silhouette.js:64-72 | true exactly when the two key sets are equal |
| Silhouettes.IsEqualIsEquivalence | source/game/gameObjects/Silhouette.js:64-72 | `isEqual` is reflexive, symmetric and transitive, and ignores outline and bounds |
| Silhouettes.GenerateNorthLines | source/game/gameObjects/Silhouette.js:169-204 | keeps tiles and bounds, and the outline becomes the old outline followed by exactly the north scan's segments, in scan order |
| Silhouettes.GenerateSouthLines | source/game/gameObjects/Silhouette.js:209-244 | keeps tiles and bounds, and the outline becomes the old outline followed by exactly the south scan's segments, in scan order |
| Silhouettes.GenerateEastLines | source/game/gameObjects/Silhouette.js:249-284 | keeps tiles and bounds, and the outline becomes the old outline followed by exactly the east scan's segments, in scan order |
| Silhouettes.GenerateWestLines | source/game/gameObjects/Silhouette.js:289-324 | keeps tiles and bounds, and the outline becomes the old outline followed by exactly the west scan's segments, in scan order |
| Silhouettes.SameScans | source/game/gameObjects/Silhouette.js:169-324 | the scans read only the tiles and the bounds: two silhouettes that agree on those have the same scans |
| Silhouettes.GenerateOutline | source/game/gameObjects/Silhouette.js:121-126 | the north, south, east and west segments are appended in that order; tiles and bounds do not change |
| Outlines.RunSegment | source/game/gameObjects/Silhouette.js:179-200 | the segment of a maximal run of exposed tiles has its corners and pivots at the run's first tile and at the tile past its end |
| Outlines.ScanLineSegments | source/game/gameObjects/Silhouette.js:175-201 | every segment a scan line emits is the segment of a maximal stretch of exposed tiles on it |
| Outlines.SegmentInScanLine | source/game/gameObjects/Silhouette.js:175-201 | every maximal stretch of exposed tiles on a line is emitted |
| Outlines.ScanSegment | source/game/gameObjects/Silhouette.js:171-201 | every segment of a scan lies on a scanned line and is the segment of a maximal stretch of exposed tiles there |
| Outlines.SegmentInScan | source/game/gameObjects/Silhouette.js:171-201 | the segment of every maximal stretch on a scanned line is in the scan |
| Outlines.SegmentOfShape | source/game/gameObjects/Silhouette.js:188-196 | a segment runs forward along its line, a whole number of tiles long, from a filled tile; each pivot is the corner's tile or the one behind it |
| Outlines.SegmentShape | source/game/gameObjects/Silhouette.js:169-324 | every segment of each of the four scans has that shape |
| Outlines.SegmentCovers | source/game/gameObjects/Silhouette.js:188-195 | a segment runs along the edges of all the tiles of its run |
| Outlines.CoveredPosition | source/game/gameObjects/Silhouette.js:188-195 | a lattice tile whose edge a segment runs along is one of the tiles of its run |
| Outlines.LastPositionEmpty | source/game/gameObjects/Silhouette.js:175 | each scan line runs one position past the upper bound, where no tile of a well-formed silhouette lies |
| Outlines.PositionOf | source/game/gameObjects/Silhouette.js:171-175 | every tile of an aligned silhouette is visited by each scan, on a scanned line at a scanned position |
| Outlines.ExposedInRun | source/game/gameObjects/Silhouette.js:175-201 | on a line whose last position is empty, every exposed tile lies in the run of an emitted segment |
| Outlines.OutlineExact | source/game/gameObjects/Silhouette.js:169-324 | for an aligned silhouette, a tile's edge on one side lies along a segment of that side's scan exactly when the tile is filled and its neighbour across the edge is empty |
| Outlines.ExposedEdgeCovered | source/game/gameObjects/Silhouette.js:169-324 | every exposed edge of an aligned silhouette is on a segment |
| Outlines.CoveredEdgeExposed | source/game/gameObjects/Silhouette.js:169-324 | every lattice edge a segment runs along is exposed |
| Outlines.SpanSumOfRuns | source/game/gameObjects/Silhouette.js:188-195 | segments built from runs span as many tiles as the runs |
| Outlines.ScanLineLength | source/game/gameObjects/Silhouette.js:171-201 | the segments of one scan line span as many tiles as the line has exposed positions |
| Outlines.LoneTileScan | source/game/gameObjects/Silhouette.js:169-324 | each scan of a lone tile emits one segment |
| Outlines.LoneTileOutline | source/game/gameObjects/Silhouette.js:121-126 | a lone tile's outline is four unit segments, north, south, east and west, all pivoting on the tile |
| Outlines.ConcaveCornerPivot | source/game/gameObjects/Silhouette.js:188-196 | in an L of three tiles, the north edge at the concave corner starts with its pivot on the tile to the west |
| Projection.InsertCubes | source/game/gameObjects/Structure.js:165-178 | the keys become the old keys plus the cubes' tiles; old entries are kept (first insertion wins); new keys map to themselves; well-formedness and attained bounds are kept |
| Projection.Footprint | source/game/gameObjects/Structure.js:149-178 | the tiles are exactly those of the occupied cells, the latest cube's included, each keyed by itself; the outline is empty |
| Projection.CreateSilhouette | source/game/gameObjects/Structure.js:126-184 | the tiles are exactly those of the latest cube and the placed cubes, with the footprint's bounds; the outline is the footprint's north, south, east and west scans in that order |
| Projection.CentreInterval | source/game/gameObjects/Structure.js:137-158 | a box coordinate, doubled and centred on the box's middle, lies within plus and minus the box's span, an even number of half units from the low end |
| Projection.CentredRange | source/game/gameObjects/Structure.js:137-158 | the centred coordinate of every occupied cell along any signed axis lies in that range |
| Projection.CentredExtremes | source/game/gameObjects/Structure.js:137-158 | both ends of the range are reached by occupied cells |
| Projection.FootprintRange | source/game/gameObjects/Structure.js:149-178 | one tile at a time: a tile of any occupied cell lies within the spans, on the lattice from their low ends |
| Projection.FootprintWithin | source/game/gameObjects/Structure.js:149-178 | for the footprint as a whole: all its tiles lie within the spans, on the lattice from their low ends |
| Projection.FootprintReaches | source/game/gameObjects/Structure.js:149-178 | the footprint reaches both ends of both spans |
| Projection.SymmetricBounds | source/game/gameObjects/Silhouette.js:47-55 | a silhouette whose tiles lie within and reach plus and minus given spans has exactly those bounds and is aligned |
| Projection.FootprintCentred | source/game/gameObjects/Structure.js:126-178 | a valid structure's footprint has bounds exactly minus and plus the structure's spans along the screen axes, and is aligned |
| Projection.SilhouetteOutlineExact | source/game/gameObjects/Structure.js:126-184 | in a valid structure's silhouette, a tile's edge lies on a segment of its side's scan exactly when the neighbouring tile is missing, and every segment of that scan is in the silhouette's outline |
| Projection.ValidFootprint | source/game/gameObjects/Structure.js:149-178 | a valid structure's footprint is centred and has at most one tile per occupied cell |
| Projection.TilesOfSize | source/game/gameObjects/Structure.js:165-178 | there are no more tiles than cells |

## Left out

- Quaternion orientation: `rotateUp`, `rotateDown`, `rotateLeft` and
  `rotateRight`, and the `transformQuat`, rounding and `toFixed` snapping in
  `createSilhouette`. These are floating-point. The orientation is
  modelled as a pair of signed structure axes (`Projection.Rotation`) that
  become the screen's x and y axes. The type does not require the two axes to
  differ, and the lemmas hold for any pair. The pair is assumed to map cube
  centres exactly, which the source's rounding to half units restores.
- `Silhouette.scale`: it moves each outline segment's corner points about
  their pivots, in floating point, for animation only. It never changes the
  tiles, the pivots or the result of `isEqual`. The outline modelled here is
  the one `generateOutline` produces, before any scaling.
- `Silhouette.draw`, which only reads the outline, and all WebGL code
  (`Cube.draw`, `Cube.drawEdges`, `webGLHelpers/`): drawing that changes
  neither tiles nor outline.
- The colour, line width, and the position and orientation fields from
  `GameObject`. The structure's position is kept only as the doubled centre.
- `Random`: the draw is the parameter `draw`. How it is chosen is not
  modelled.
- The game states, camera, animations and title screen that call the core.
  Only `isEqual`'s own logic is modelled, not how gameplay uses it.
- Silhouettes whose tiles are not a whole number of tiles from the lower
  bound. The scans are modelled for them exactly as the code runs, but
  `Outlines.OutlineExact` assumes alignment. The silhouette of a valid
  structure is always aligned (`Projection.FootprintCentred`).
- A game-level form of `Projection.ValidFootprint`, for every state of a
  history. It follows from `Structures.HistoryIsValid`, but the combined
  proof obligation was too large to state in one lemma.

=== FILE: lattice.dfy ===
/**
 Integer lattice points in three dimensions: the keys of a structure's cube
 maps (the source keys them by the vector's string form, which is canonical
 for integer coordinates, so the vector itself serves as the key here).
 */
module Lattice {

  datatype Axis = X | Y | Z

  datatype Vec3 = Vec3(x: int, y: int, z: int)

  const Origin := Vec3(0, 0, 0)

  function Coord(v: Vec3, a: Axis): int
  {
    match a
    case X => v.x
    case Y => v.y
    case Z => v.z
  }

  function Add(u: Vec3, v: Vec3): Vec3
  {
    Vec3(u.x + v.x, u.y + v.y, u.z + v.z)
  }

  /** The unit vector along `a`, pointing to the positive side when `positive` holds. */
  function Unit(a: Axis, positive: bool): (r: Vec3)
    ensures Coord(r, a) == (if positive then 1 else -1)
    ensures forall b :: b != a ==> Coord(r, b) == 0
  {
    var k := if positive then 1 else -1;
    match a
    case X => Vec3(k, 0, 0)
    case Y => Vec3(0, k, 0)
    case Z => Vec3(0, 0, k)
  }

  function Abs(n: int): nat
  {
    if n < 0 then -n else n
  }

  /** `p` and `q` share a face: they differ by one on exactly one axis. */
  predicate Adjacent(p: Vec3, q: Vec3)
  {
    Abs(p.x - q.x) + Abs(p.y - q.y) + Abs(p.z - q.z) == 1
  }

  /** The six face neighbours of `p`, in the order `addAdjacentCubes` lists them. */
  function Neighbours(p: Vec3): (r: seq<Vec3>)
    ensures |r| == 6
    ensures forall q :: q in r <==> Adjacent(p, q)
  {
    [ Vec3(p.x - 1, p.y, p.z), Vec3(p.x + 1, p.y, p.z),
      Vec3(p.x, p.y - 1, p.z), Vec3(p.x, p.y + 1, p.z),
      Vec3(p.x, p.y, p.z - 1), Vec3(p.x, p.y, p.z + 1) ]
  }

  /** `v` lies in the closed box spanned by `lo` and `hi`. */
  predicate InBox(v: Vec3, lo: Vec3, hi: Vec3)
  {
    lo.x <= v.x <= hi.x && lo.y <= v.y <= hi.y && lo.z <= v.z <= hi.z
  }

  function Min(a: int, b: int): int
  {
    if a < b then a else b
  }

  function Max(a: int, b: int): int
  {
    if a < b then b else a
  }

  /** The largest extent of the box along any axis (zero for a single cell). */
  function MaxSpan(lo: Vec3, hi: Vec3): int
  {
    Max(hi.x - lo.x, Max(hi.y - lo.y, hi.z - lo.z))
  }

}

=== FILE: options.dfy ===
/** The optional value the source expresses with `null`. */
module Options {

  datatype Option<+T> = None | Some(value: T)

}

=== FILE: outline.dfy ===
/**
 What the boundary scans of `Silhouette.js` compute: each segment is a maximal
 stretch of exposed tile edges on one scan line, with the corner and pivot
 rules applied at its two ends; every exposed edge lies on exactly such a
 segment; and the segments of a line are as long, together, as the line has
 exposed edges.
 */
module Outlines {

  import opened Options
  import opened Runs
  import opened Silhouettes

  /**
   `l` is the segment for positions `a` (inclusive) to `b` (exclusive) of scan
   line `v`: a maximal stretch of exposed tiles, whose first corner lies at
   tile `a` and whose last corner lies at tile `b`, the first position past it.
   */
  ghost predicate SegmentOf(tiles: map<Pt, Pt>, d: Side, e: Extent, v: int, a: nat, b: nat, l: Line)
  {
    && a < b < e.count
    && (forall k :: a <= k < b ==> Exposed(tiles, d, Column(d, e, k, v)))
    && !Exposed(tiles, d, Column(d, e, b, v))
    && (a == 0 || !Exposed(tiles, d, Column(d, e, a - 1, v)))
    && l.point0 == Corner(d, Column(d, e, a, v))
    && l.pivot0 == StartPivot(tiles, d, Column(d, e, a, v))
    && l.point1 == Corner(d, Column(d, e, b, v))
    && l.pivot1 == EndPivot(tiles, d, Column(d, e, b, v))
  }

  /** The segment built from a maximal run of exposed positions is that run's segment. */
  lemma RunSegment(tiles: map<Pt, Pt>, d: Side, e: Extent, v: int, run: Run)
    requires IsRun(Pattern(tiles, d, e, v), run)
    ensures SegmentOf(tiles, d, e, v, run.start, run.end, LineOf(tiles, d, e, v, run))
  {
    var pat := Pattern(tiles, d, e, v);
    forall k | run.start <= k < run.end
      ensures Exposed(tiles, d, Column(d, e, k, v))
    {
      assert pat[k];
    }
    assert !pat[run.end];
    assert run.start == 0 || !pat[run.start - 1];
  }

  /** A scan line emits exactly the segments of its maximal stretches of exposed tiles. */
  lemma ScanLineSegments(tiles: map<Pt, Pt>, d: Side, e: Extent, v: int, l: Line)
    returns (a: nat, b: nat)
    requires l in ScanLine(tiles, d, e, v)
    ensures SegmentOf(tiles, d, e, v, a, b, l)
  {
    var pat := Pattern(tiles, d, e, v);
    var runs := LineRuns(pat);
    var lines := ScanLine(tiles, d, e, v);
    var i :| 0 <= i < |lines| && lines[i] == l;
    var run := runs[i];
    assert l == LineOf(tiles, d, e, v, run);
    LineRunsExact(pat);
    assert run in runs;
    RunSegment(tiles, d, e, v, run);
    a, b := run.start, run.end;
  }

  /** Conversely, every maximal stretch of exposed tiles is emitted as a segment. */
  lemma SegmentInScanLine(tiles: map<Pt, Pt>, d: Side, e: Extent, v: int, a: nat, b: nat, l: Line)
    requires SegmentOf(tiles, d, e, v, a, b, l)
    ensures l in ScanLine(tiles, d, e, v)
  {
    var pat := Pattern(tiles, d, e, v);
    var run := Run(a, b);
    assert IsRun(pat, run);
    LineRunsExact(pat);
    var runs := LineRuns(pat);
    var i :| 0 <= i < |runs| && runs[i] == run;
    assert ScanLine(tiles, d, e, v)[i] == LineOf(tiles, d, e, v, run) == l;
  }

  /** The segments of line `r` are among those of all lines. */
  lemma {:induction false} ConcatHas(lss: seq<seq<Line>>, r: nat, l: Line)
    requires r < |lss| && l in lss[r]
    ensures l in Concat(lss)
    decreases r
  {
    if r > 0 {
      ConcatHas(lss[1..], r - 1, l);
    }
  }

  /** Every segment of all lines comes from one of them. */
  lemma {:induction false} ConcatFrom(lss: seq<seq<Line>>, l: Line) returns (r: nat)
    requires l in Concat(lss)
    ensures r < |lss| && l in lss[r]
    decreases |lss|
  {
    if l in lss[0] {
      r := 0;
    } else {
      var r' := ConcatFrom(lss[1..], l);
      r := r' + 1;
    }
  }

  /** Every segment of a boundary scan comes from one of the scanned lines. */
  lemma LineOfSegment(s: Silhouette, d: Side, l: Line) returns (r: nat)
    requires l in Scan(s, d)
    ensures r < LinesScanned(s, d).count
    ensures l in ScanLine(s.tiles, d, Along(s, d), LinesScanned(s, d).lo + Step * r)
  {
    var rows := ScanRows(s, d);
    r := ConcatFrom(rows, l);
    assert rows[r] == ScanLine(s.tiles, d, Along(s, d), LinesScanned(s, d).lo + Step * r);
  }

  /** Conversely, each scanned line contributes all its segments to the scan. */
  lemma SegmentOfLine(s: Silhouette, d: Side, r: nat, l: Line)
    requires r < LinesScanned(s, d).count
    requires l in ScanLine(s.tiles, d, Along(s, d), LinesScanned(s, d).lo + Step * r)
    ensures l in Scan(s, d)
  {
    var rows := ScanRows(s, d);
    assert rows[r] == ScanLine(s.tiles, d, Along(s, d), LinesScanned(s, d).lo + Step * r);
    ConcatHas(rows, r, l);
  }

  /**
   Every segment of a boundary scan lies on one of the scanned lines and is
   the segment of a maximal stretch of exposed tiles there.
   */
  lemma ScanSegment(s: Silhouette, d: Side, l: Line) returns (r: nat, a: nat, b: nat)
    requires l in Scan(s, d)
    ensures r < LinesScanned(s, d).count
    ensures SegmentOf(s.tiles, d, Along(s, d), LinesScanned(s, d).lo + Step * r, a, b, l)
  {
    r := LineOfSegment(s, d, l);
    a, b := ScanLineSegments(s.tiles, d, Along(s, d), LinesScanned(s, d).lo + Step * r, l);
  }

  /** Conversely, the segment of every maximal stretch of exposed tiles on a scanned line is in the scan. */
  lemma SegmentInScan(s: Silhouette, d: Side, r: nat, a: nat, b: nat, l: Line)
    requires r < LinesScanned(s, d).count
    requires SegmentOf(s.tiles, d, Along(s, d), LinesScanned(s, d).lo + Step * r, a, b, l)
    ensures l in Scan(s, d)
  {
    SegmentInScanLine(s.tiles, d, Along(s, d), LinesScanned(s, d).lo + Step * r, a, b, l);
    SegmentOfLine(s, d, r, l);
  }

  /**
   The shape of a segment: it runs along the scan direction (west to east for
   north and south, south to north for east and west), a whole number of tiles
   long; its first corner is on the edge of its first tile, which is filled
   and pivots on itself or the one behind it; its last corner is on the edge of
   the first tile past it, which pivots on itself or the one behind it.
   */
  lemma SegmentOfShape(tiles: map<Pt, Pt>, d: Side, e: Extent, v: int, a: nat, b: nat, l: Line)
    requires SegmentOf(tiles, d, e, v, a, b, l)
    ensures ScansRows(d) ==> l.point0.y == l.point1.y && l.point0.x < l.point1.x
    ensures !ScansRows(d) ==> l.point0.x == l.point1.x && l.point0.y < l.point1.y
    ensures (l.point1.x - l.point0.x) % Step == 0 && (l.point1.y - l.point0.y) % Step == 0
    ensures Column(d, e, a, v) in tiles
    ensures l.pivot0 == Column(d, e, a, v) || l.pivot0 == Back(d, Column(d, e, a, v))
    ensures l.pivot1 == Column(d, e, b, v) || l.pivot1 == Back(d, Column(d, e, b, v))
  {
    assert Exposed(tiles, d, Column(d, e, a, v));
  }

  /** Every segment of a boundary scan has the shape above. */
  lemma SegmentShape(s: Silhouette, d: Side, l: Line)
    requires l in Scan(s, d)
    ensures ScansRows(d) ==> l.point0.y == l.point1.y && l.point0.x < l.point1.x
    ensures !ScansRows(d) ==> l.point0.x == l.point1.x && l.point0.y < l.point1.y
    ensures (l.point1.x - l.point0.x) % Step == 0 && (l.point1.y - l.point0.y) % Step == 0
    ensures exists t :: t in s.tiles && l.point0 == Corner(d, t) && (l.pivot0 == t || l.pivot0 == Back(d, t))
    ensures exists t :: l.point1 == Corner(d, t) && (l.pivot1 == t || l.pivot1 == Back(d, t))
  {
    var r, a, b := ScanSegment(s, d, l);
    var e := Along(s, d);
    var v := LinesScanned(s, d).lo + Step * r;
    SegmentOfShape(s.tiles, d, e, v, a, b, l);
    var first, past := Column(d, e, a, v), Column(d, e, b, v);
    assert first in s.tiles && l.point0 == Corner(d, first) && (l.pivot0 == first || l.pivot0 == Back(d, first));
    assert l.point1 == Corner(d, past) && (l.pivot1 == past || l.pivot1 == Back(d, past));
  }

  /** Segment `l` of side `d` runs along the `d` edge of tile `t`. */
  predicate Covers(d: Side, l: Line, t: Pt)
  {
    var c := Corner(d, t);
    if ScansRows(d) then
      l.point0.y == c.y == l.point1.y && l.point0.x <= c.x && c.x + Step <= l.point1.x
    else
      l.point0.x == c.x == l.point1.x && l.point0.y <= c.y && c.y + Step <= l.point1.y
  }

  /** A segment runs along the edges of the tiles of its run. */
  lemma SegmentCovers(tiles: map<Pt, Pt>, d: Side, e: Extent, v: int, a: nat, b: nat, l: Line, k: nat)
    requires SegmentOf(tiles, d, e, v, a, b, l) && a <= k < b
    ensures Covers(d, l, Column(d, e, k, v))
  {
  }

  /** The tiles a segment runs along, among those a whole number of positions from the line's start, are those of its run. */
  lemma CoveredPosition(tiles: map<Pt, Pt>, d: Side, e: Extent, v: int, a: nat, b: nat, l: Line, t: Pt)
    returns (k: nat)
    requires SegmentOf(tiles, d, e, v, a, b, l) && Covers(d, l, t)
    requires ((if ScansRows(d) then t.x else t.y) - e.lo) % Step == 0
    ensures a <= k < b && Column(d, e, k, v) == t
  {
    var u := if ScansRows(d) then t.x else t.y;
    k := (u - e.lo) / Step;
  }

  /** `t` is a whole number of tiles away from the lower bound: one of the positions the scans visit. */
  ghost predicate OnLattice(s: Silhouette, t: Pt)
  {
    (t.x - s.negBound.x) % Step == 0 && (t.y - s.negBound.y) % Step == 0
  }

  /** Every tile sits where the scans look for it. */
  ghost predicate Aligned(s: Silhouette)
  {
    WellFormed(s) && forall k :: k in s.tiles ==> OnLattice(s, k)
  }

  /**
   Each scan line runs one position past the upper bound, which no tile of a
   well-formed silhouette reaches, so its last test always fails and no
   segment is left open at the end of a line.
   */
  lemma LastPositionEmpty(s: Silhouette, d: Side, v: int)
    requires WellFormed(s)
    ensures Along(s, d).count > 0
    ensures Column(d, Along(s, d), Along(s, d).count - 1, v) !in s.tiles
  {
  }

  /** The scan position of tile `t`: which scanned line it is on, and where along it. */
  lemma PositionOf(s: Silhouette, d: Side, t: Pt) returns (r: nat, k: nat)
    requires Aligned(s) && t in s.tiles
    ensures r < LinesScanned(s, d).count && k < Along(s, d).count
    ensures Column(d, Along(s, d), k, LinesScanned(s, d).lo + Step * r) == t
  {
    assert Within(t, s.negBound, s.posBound) && OnLattice(s, t);
    if ScansRows(d) {
      r, k := (t.y - s.negBound.y) / Step, (t.x - s.negBound.x) / Step;
    } else {
      r, k := (t.x - s.negBound.x) / Step, (t.y - s.negBound.y) / Step;
    }
  }

  /**
   On a scan line whose last position is empty, every exposed position lies in
   the run of some segment the line emits.
   */
  lemma ExposedInRun(tiles: map<Pt, Pt>, d: Side, e: Extent, v: int, k: nat)
    returns (a: nat, b: nat, l: Line)
    requires 0 < e.count && Column(d, e, e.count - 1, v) !in tiles
    requires k < e.count && Exposed(tiles, d, Column(d, e, k, v))
    ensures SegmentOf(tiles, d, e, v, a, b, l) && a <= k < b
  {
    var pat := Pattern(tiles, d, e, v);
    LineRunsExact(pat);
    assert pat[k] && !pat[|pat| - 1];
    var runs := LineRuns(pat);
    var i :| 0 <= i < |runs| && runs[i].start <= k < runs[i].end;
    RunSegment(tiles, d, e, v, runs[i]);
    a, b, l := runs[i].start, runs[i].end, LineOf(tiles, d, e, v, runs[i]);
  }

  /**
   The outline of an aligned silhouette is exact, side by side: a tile's edge
   on side `d` lies along a segment of the `d` scan exactly when the tile is
   filled and its neighbour across that edge is empty.
   */
  lemma OutlineExact(s: Silhouette, d: Side, t: Pt)
    requires Aligned(s) && OnLattice(s, t)
    ensures Exposed(s.tiles, d, t) <==> exists l :: l in Scan(s, d) && Covers(d, l, t)
  {
    if Exposed(s.tiles, d, t) {
      var l := ExposedEdgeCovered(s, d, t);
    }
    forall l | l in Scan(s, d) && Covers(d, l, t)
      ensures Exposed(s.tiles, d, t)
    {
      CoveredEdgeExposed(s, d, t, l);
    }
  }

  /** Every exposed edge is on some segment. */
  lemma ExposedEdgeCovered(s: Silhouette, d: Side, t: Pt) returns (l: Line)
    requires Aligned(s) && Exposed(s.tiles, d, t)
    ensures l in Scan(s, d) && Covers(d, l, t)
  {
    var e := Along(s, d);
    var r, k := PositionOf(s, d, t);
    var v := LinesScanned(s, d).lo + Step * r;
    LastPositionEmpty(s, d, v);
    var a, b;
    a, b, l := ExposedInRun(s.tiles, d, e, v, k);
    SegmentInScan(s, d, r, a, b, l);
    SegmentCovers(s.tiles, d, e, v, a, b, l, k);
  }

  /** Every edge a segment runs along is exposed. */
  lemma CoveredEdgeExposed(s: Silhouette, d: Side, t: Pt, l: Line)
    requires Aligned(s) && OnLattice(s, t)
    requires l in Scan(s, d) && Covers(d, l, t)
    ensures Exposed(s.tiles, d, t)
  {
    var e := Along(s, d);
    var r, a, b := ScanSegment(s, d, l);
    var v := LinesScanned(s, d).lo + Step * r;
    var k := CoveredPosition(s.tiles, d, e, v, a, b, l, t);
  }

  /** How many tiles segment `l` of side `d` spans. */
  function Span(d: Side, l: Line): int
  {
    if ScansRows(d) then (l.point1.x - l.point0.x) / Step else (l.point1.y - l.point0.y) / Step
  }

  /** How many tiles the segments `ls` of side `d` span together. */
  function SpanSum(d: Side, ls: seq<Line>): int
  {
    if ls == [] then 0 else Span(d, ls[0]) + SpanSum(d, ls[1..])
  }

  /** The segments built from runs span as many tiles as the runs. */
  lemma {:induction false} SpanSumOfRuns(tiles: map<Pt, Pt>, d: Side, e: Extent, v: int, runs: seq<Run>)
    ensures SpanSum(d, seq(|runs|, i requires 0 <= i < |runs| => LineOf(tiles, d, e, v, runs[i])))
         == TotalLength(runs)
    decreases |runs|
  {
    var ls := seq(|runs|, i requires 0 <= i < |runs| => LineOf(tiles, d, e, v, runs[i]));
    if runs != [] {
      var rest := runs[1..];
      assert ls[1..] == seq(|rest|, i requires 0 <= i < |rest| => LineOf(tiles, d, e, v, rest[i]));
      SpanSumOfRuns(tiles, d, e, v, rest);
    }
  }

  /**
   The segments of one scan line of a well-formed silhouette together span
   exactly as many tiles as the line has exposed positions.
   */
  lemma ScanLineLength(s: Silhouette, d: Side, v: int)
    requires WellFormed(s)
    ensures SpanSum(d, ScanLine(s.tiles, d, Along(s, d), v))
         == CountFrom(Pattern(s.tiles, d, Along(s, d), v), 0)
  {
    var e := Along(s, d);
    var pat := Pattern(s.tiles, d, e, v);
    LastPositionEmpty(s, d, v);
    LineRunsExact(pat);
    SpanSumOfRuns(s.tiles, d, e, v, LineRuns(pat));
  }

  /** Each scan of a lone tile at the origin visits one line of two positions and emits one segment. */
  lemma LoneTileScan(d: Side)
    ensures Scan(Set(New(), Pt(0, 0), Pt(0, 0)), d)
         == [LineOf(map[Pt(0, 0) := Pt(0, 0)], d, Extent(0, 2), 0, Run(0, 1))]
  {
  }

  /** The outline of a lone tile at the origin: one unit segment per side, all pivoting on that tile. */
  lemma LoneTileOutline()
    ensures GenerateOutline(Set(New(), Pt(0, 0), Pt(0, 0))).outline == [
      Line(Pt(-1, 1), Pt(0, 0), Pt(1, 1), Pt(0, 0)),
      Line(Pt(-1, -1), Pt(0, 0), Pt(1, -1), Pt(0, 0)),
      Line(Pt(1, -1), Pt(0, 0), Pt(1, 1), Pt(0, 0)),
      Line(Pt(-1, -1), Pt(0, 0), Pt(-1, 1), Pt(0, 0))]
  {
    var s := Set(New(), Pt(0, 0), Pt(0, 0));
    var tiles := map[Pt(0, 0) := Pt(0, 0)];
    var e := Extent(0, 2);
    var run := Run(0, 1);
    assert s.outline == [];
    LoneTileScan(North);
    assert LineOf(tiles, North, e, 0, run) == Line(Pt(-1, 1), Pt(0, 0), Pt(1, 1), Pt(0, 0));
    LoneTileScan(South);
    assert LineOf(tiles, South, e, 0, run) == Line(Pt(-1, -1), Pt(0, 0), Pt(1, -1), Pt(0, 0));
    LoneTileScan(East);
    assert LineOf(tiles, East, e, 0, run) == Line(Pt(1, -1), Pt(0, 0), Pt(1, 1), Pt(0, 0));
    LoneTileScan(West);
    assert LineOf(tiles, West, e, 0, run) == Line(Pt(-1, -1), Pt(0, 0), Pt(-1, 1), Pt(0, 0));
  }

  /**
   Three tiles in an L, at (0, 0), (1, 0) and (0, 1): the north edge of
   (1, 0) starts at a concave corner, where the tile to its north-west is
   filled, so its first corner pivots on the tile to its west; its end pivots
   on (1, 0) itself, the tile past it having an empty north neighbour.
   */
  lemma ConcaveCornerPivot()
    ensures var l := Set(Set(Set(New(), Pt(0, 0), Pt(0, 0)), Pt(2, 0), Pt(2, 0)), Pt(0, 2), Pt(0, 2));
      Line(Pt(1, 1), Pt(0, 0), Pt(3, 1), Pt(2, 0)) in Scan(l, North)
  {
    var l := Set(Set(Set(New(), Pt(0, 0), Pt(0, 0)), Pt(2, 0), Pt(2, 0)), Pt(0, 2), Pt(0, 2));
    var e := Along(l, North);
    assert l.negBound == Pt(0, 0) && l.posBound == Pt(2, 2);
    assert e == Extent(0, 3) && LinesScanned(l, North) == Extent(0, 2);
    assert Column(North, e, 0, 0) == Pt(0, 0) && Column(North, e, 1, 0) == Pt(2, 0);
    assert Column(North, e, 2, 0) == Pt(4, 0);
    SegmentInScan(l, North, 0, 1, 2, Line(Pt(1, 1), Pt(0, 0), Pt(3, 1), Pt(2, 0)));
  }

}

=== FILE: projection.dfy ===
/**
 The tile-insertion part of `Structure.createSilhouette`: every placed cube
 and the latest cube are rotated into the view, projected onto the screen
 plane and centred on the structure's rotated centre, and their tiles are set
 into a fresh silhouette (the latest cube first, then the cubes in insertion
 order, a tile already present being left alone), whose outline is then
 generated.

 The structure's orientation is a quarter-turn rotation, so only its first two
 rows matter here: which structure axis, with which sign, becomes the screen's
 x and y axis.
 */
module Projection {

  import opened Lattice
  import opened Structures
  import opened Silhouettes
  import opened Outlines

  /** The screen x and y axes as signed structure axes. */
  datatype Rotation = Rotation(axisX: Axis, flipX: bool, axisY: Axis, flipY: bool)

  function Signed(n: int, flip: bool): int
  {
    if flip then -n else n
  }

  /** The screen position of `v` under `rot`, in the units of `v`. */
  function Screen(rot: Rotation, v: Vec3): Pt
  {
    Pt(Signed(Coord(v, rot.axisX), rot.flipX), Signed(Coord(v, rot.axisY), rot.flipY))
  }

  /**
   The tile of cell `c`, in half units: its rotated position less the rotated
   centre of the structure (whose `center` is already in half units).
   */
  function TileOf(s: Structure, rot: Rotation, c: Vec3): Pt
  {
    var p := Screen(rot, c);
    var o := Screen(rot, s.center);
    Pt(Step * p.x - o.x, Step * p.y - o.y)
  }

  /** The tiles of `cells`. */
  ghost function TilesOf(s: Structure, rot: Rotation, cells: seq<Vec3>): set<Pt>
  {
    set c | c in cells :: TileOf(s, rot, c)
  }

  /**
   The loop over the cubes: each cube's tile is set, under its own position,
   unless that key is already present, so the first tile set under a key is
   the one kept and only the new keys are added.
   */
  function InsertCubes(sil: Silhouette, s: Structure, rot: Rotation, cubes: seq<Vec3>): (r: Silhouette)
    ensures r.tiles.Keys == sil.tiles.Keys + TilesOf(s, rot, cubes)
    ensures forall k :: k in sil.tiles ==> r.tiles[k] == sil.tiles[k]
    ensures forall k :: k in r.tiles && k !in sil.tiles ==> r.tiles[k] == k
    ensures r.outline == sil.outline
    ensures WellFormed(sil) ==> WellFormed(r)
    ensures BoundsAttained(sil) ==> BoundsAttained(r)
    decreases |cubes|
  {
    if cubes == [] then
      sil
    else
      var t := TileOf(s, rot, cubes[0]);
      var next := if t in sil.tiles then sil else Set(sil, t, t);
      assert TilesOf(s, rot, cubes) == {t} + TilesOf(s, rot, cubes[1..]);
      InsertCubes(next, s, rot, cubes[1..])
  }

  /** The silhouette's tiles before the outline is generated. */
  function Footprint(s: Structure, rot: Rotation): (r: Silhouette)
    ensures r.tiles.Keys == TilesOf(s, rot, Occupied(s))
    ensures TileOf(s, rot, s.latest) in r.tiles
    ensures forall k :: k in r.tiles ==> r.tiles[k] == k
    ensures r.outline == []
    ensures WellFormed(r) && BoundsAttained(r)
  {
    var t := TileOf(s, rot, s.latest);
    assert TilesOf(s, rot, Occupied(s)) == {t} + TilesOf(s, rot, s.cubes);
    InsertCubes(Set(Silhouettes.New(), t, t), s, rot, s.cubes)
  }

  /**
   `createSilhouette`: the footprint with its outline generated. Its tiles are
   exactly those of the latest cube and the placed cubes.
   */
  function CreateSilhouette(s: Structure, rot: Rotation): (r: Silhouette)
    ensures r.tiles.Keys == TilesOf(s, rot, Occupied(s))
    ensures r.tiles == Footprint(s, rot).tiles
    ensures r.negBound == Footprint(s, rot).negBound && r.posBound == Footprint(s, rot).posBound
    ensures r.outline == Scan(Footprint(s, rot), North) + Scan(Footprint(s, rot), South)
                       + Scan(Footprint(s, rot), East) + Scan(Footprint(s, rot), West)
  {
    var fp := Footprint(s, rot);
    GenerateOutline(fp)
  }

  /*** The footprint of a valid structure is centred and aligned ***/

  /** The centred screen coordinate, in half units, of cell `c` along signed axis `a`. */
  function Centred(s: Structure, a: Axis, flip: bool, c: Vec3): int
  {
    Step * Signed(Coord(c, a), flip) - Signed(Coord(s.center, a), flip)
  }

  /** The structure's extent along `a`: the width of its bounding box less one. */
  function BoxSpan(s: Structure, a: Axis): int
  {
    Coord(s.posBound, a) - Coord(s.negBound, a)
  }

  /** The box and centre of a structure: the part of `Valid` the footprint's shape depends on. */
  ghost predicate Boxed(s: Structure)
  {
    ExactBox(Occupied(s), s.negBound, s.posBound) && s.center == Add(s.negBound, s.posBound)
  }

  /**
   A coordinate `v` between `n` and `p`, doubled, signed and centred on the
   signed `n + p`, lies between minus and plus `p - n`, an even number of half
   units from the low end; the two ends come from `n` and `p`.
   */
  lemma CentreInterval(n: int, p: int, v: int, flip: bool)
    requires n <= v <= p
    ensures var t := Step * Signed(v, flip) - Signed(n + p, flip);
      && -(p - n) <= t <= p - n
      && (t + (p - n)) % Step == 0
      && (v == n ==> t == Signed(n - p, flip))
      && (v == p ==> t == Signed(p - n, flip))
  {
    var t := Step * Signed(v, flip) - Signed(n + p, flip);
    if flip {
      assert t + (p - n) == Step * (p - v);
    } else {
      assert t + (p - n) == Step * (v - n);
    }
  }

  /**
   Along any signed axis, the centred coordinates of the cells of a boxed
   structure lie between minus and plus its span, an even number of half
   units from the low end.
   */
  lemma CentredRange(s: Structure, a: Axis, flip: bool, c: Vec3)
    requires Boxed(s) && c in Occupied(s)
    ensures -BoxSpan(s, a) <= Centred(s, a, flip, c) <= BoxSpan(s, a)
    ensures (Centred(s, a, flip, c) + BoxSpan(s, a)) % Step == 0
  {
    assert InBox(c, s.negBound, s.posBound);
    assert Coord(s.negBound, a) <= Coord(c, a) <= Coord(s.posBound, a);
    assert Coord(s.center, a) == Coord(s.negBound, a) + Coord(s.posBound, a);
    CentreInterval(Coord(s.negBound, a), Coord(s.posBound, a), Coord(c, a), flip);
  }

  /** Both ends of that range are reached, by cells on the two faces of the box. */
  lemma CentredExtremes(s: Structure, a: Axis, flip: bool) returns (lo: Vec3, hi: Vec3)
    requires Boxed(s)
    ensures lo in Occupied(s) && Centred(s, a, flip, lo) == -BoxSpan(s, a)
    ensures hi in Occupied(s) && Centred(s, a, flip, hi) == BoxSpan(s, a)
  {
    var n, p := Coord(s.negBound, a), Coord(s.posBound, a);
    assert Attains(Occupied(s), a, s.negBound, s.posBound);
    var low :| low in Occupied(s) && Coord(low, a) == n;
    var high :| high in Occupied(s) && Coord(high, a) == p;
    assert Coord(s.center, a) == n + p;
    assert InBox(low, s.negBound, s.posBound);
    CentreInterval(n, p, n, flip);
    CentreInterval(n, p, p, flip);
    if flip {
      lo, hi := high, low;
    } else {
      lo, hi := low, high;
    }
  }

  /** The tile of a cell, axis by axis. */
  lemma TileOfCentred(s: Structure, rot: Rotation, c: Vec3)
    ensures TileOf(s, rot, c) == Pt(Centred(s, rot.axisX, rot.flipX, c), Centred(s, rot.axisY, rot.flipY, c))
  {
  }

  /** `k` lies within plus and minus `hx` and `hy`, an even number of half units from the low ends. */
  predicate InSpans(k: Pt, hx: int, hy: int)
  {
    && -hx <= k.x <= hx && (k.x + hx) % Step == 0
    && -hy <= k.y <= hy && (k.y + hy) % Step == 0
  }

  /** Every tile of a boxed structure's footprint lies within its spans, on the lattice from their low ends. */
  lemma FootprintRange(s: Structure, rot: Rotation, k: Pt)
    requires Boxed(s) && k in TilesOf(s, rot, Occupied(s))
    ensures -BoxSpan(s, rot.axisX) <= k.x <= BoxSpan(s, rot.axisX) && (k.x + BoxSpan(s, rot.axisX)) % Step == 0
    ensures -BoxSpan(s, rot.axisY) <= k.y <= BoxSpan(s, rot.axisY) && (k.y + BoxSpan(s, rot.axisY)) % Step == 0
  {
    var c :| c in Occupied(s) && k == TileOf(s, rot, c);
    TileOfCentred(s, rot, c);
    CentredRange(s, rot.axisX, rot.flipX, c);
    CentredRange(s, rot.axisY, rot.flipY, c);
  }

  /** Every tile of the footprint lies within the spans. */
  lemma FootprintWithin(s: Structure, rot: Rotation)
    requires Boxed(s)
    ensures forall k :: k in Footprint(s, rot).tiles ==> InSpans(k, BoxSpan(s, rot.axisX), BoxSpan(s, rot.axisY))
  {
    assert Footprint(s, rot).tiles.Keys == TilesOf(s, rot, Occupied(s));
    forall k | k in Footprint(s, rot).tiles
      ensures InSpans(k, BoxSpan(s, rot.axisX), BoxSpan(s, rot.axisY))
    {
      FootprintRange(s, rot, k);
    }
  }

  /** The footprint reaches both ends of both spans. */
  lemma FootprintReaches(s: Structure, rot: Rotation) returns (xlo: Pt, xhi: Pt, ylo: Pt, yhi: Pt)
    requires Boxed(s)
    ensures xlo in Footprint(s, rot).tiles && xlo.x == -BoxSpan(s, rot.axisX)
    ensures xhi in Footprint(s, rot).tiles && xhi.x == BoxSpan(s, rot.axisX)
    ensures ylo in Footprint(s, rot).tiles && ylo.y == -BoxSpan(s, rot.axisY)
    ensures yhi in Footprint(s, rot).tiles && yhi.y == BoxSpan(s, rot.axisY)
  {
    var cxlo, cxhi := CentredExtremes(s, rot.axisX, rot.flipX);
    var cylo, cyhi := CentredExtremes(s, rot.axisY, rot.flipY);
    TileOfCentred(s, rot, cxlo);
    TileOfCentred(s, rot, cxhi);
    TileOfCentred(s, rot, cylo);
    TileOfCentred(s, rot, cyhi);
    xlo, xhi := TileOf(s, rot, cxlo), TileOf(s, rot, cxhi);
    ylo, yhi := TileOf(s, rot, cylo), TileOf(s, rot, cyhi);
    assert xlo in TilesOf(s, rot, Occupied(s)) && xhi in TilesOf(s, rot, Occupied(s));
    assert ylo in TilesOf(s, rot, Occupied(s)) && yhi in TilesOf(s, rot, Occupied(s));
    assert Footprint(s, rot).tiles.Keys == TilesOf(s, rot, Occupied(s));
  }

  /**
   The footprint of a boxed structure is centred on the origin: its bounds
   are exactly minus and plus the span of the structure's box along the axes
   shown on screen; and every tile is an even number of half units from the
   lower bound, so the boundary scans visit every tile.
   */
  lemma FootprintCentred(s: Structure, rot: Rotation)
    requires Boxed(s)
    ensures Footprint(s, rot).negBound == Pt(-BoxSpan(s, rot.axisX), -BoxSpan(s, rot.axisY))
    ensures Footprint(s, rot).posBound == Pt(BoxSpan(s, rot.axisX), BoxSpan(s, rot.axisY))
    ensures Aligned(Footprint(s, rot))
  {
    FootprintWithin(s, rot);
    var xlo, xhi, ylo, yhi := FootprintReaches(s, rot);
    SymmetricBounds(Footprint(s, rot), BoxSpan(s, rot.axisX), BoxSpan(s, rot.axisY), xlo, xhi, ylo, yhi);
  }

  /**
   A silhouette whose tiles all lie within plus and minus `hx` and `hy`, on
   the lattice from the low ends, and reach all four ends, has exactly those
   bounds, and is aligned.
   */
  lemma SymmetricBounds(sil: Silhouette, hx: int, hy: int, xlo: Pt, xhi: Pt, ylo: Pt, yhi: Pt)
    requires WellFormed(sil) && BoundsAttained(sil)
    requires forall k :: k in sil.tiles ==> InSpans(k, hx, hy)
    requires xlo in sil.tiles && xlo.x == -hx && xhi in sil.tiles && xhi.x == hx
    requires ylo in sil.tiles && ylo.y == -hy && yhi in sil.tiles && yhi.y == hy
    ensures sil.negBound == Pt(-hx, -hy) && sil.posBound == Pt(hx, hy)
    ensures Aligned(sil)
  {
    assert Within(xlo, sil.negBound, sil.posBound) && Within(xhi, sil.negBound, sil.posBound);
    assert Within(ylo, sil.negBound, sil.posBound) && Within(yhi, sil.negBound, sil.posBound);
  }

  /**
   The outline of a valid structure's silhouette is exact: on each side, a
   tile's edge lies along a segment of that side's scan exactly when the
   neighbouring tile across the edge is missing from the footprint.
   */
  lemma SilhouetteOutlineExact(s: Structure, rot: Rotation, d: Side, t: Pt)
    requires Valid(s) && t in Footprint(s, rot).tiles
    ensures Across(d, t) !in CreateSilhouette(s, rot).tiles
        <==> exists l :: l in Scan(Footprint(s, rot), d) && Covers(d, l, t)
    ensures forall l :: l in Scan(Footprint(s, rot), d) ==> l in CreateSilhouette(s, rot).outline
  {
    FootprintCentred(s, rot);
    OutlineExact(Footprint(s, rot), d, t);
  }

  /**
   The footprint of a valid structure is centred on the origin and holds at
   most one tile per occupied cell.
   */
  lemma ValidFootprint(s: Structure, rot: Rotation)
    requires Valid(s)
    ensures var fp := Footprint(s, rot);
      && fp.negBound == Pt(-BoxSpan(s, rot.axisX), -BoxSpan(s, rot.axisY))
      && fp.posBound == Pt(BoxSpan(s, rot.axisX), BoxSpan(s, rot.axisY))
      && |fp.tiles.Keys| <= |Occupied(s)|
  {
    FootprintCentred(s, rot);
    TilesOfSize(s, rot, Occupied(s));
  }

  /** There are no more tiles than cells. */
  lemma {:induction false} TilesOfSize(s: Structure, rot: Rotation, cells: seq<Vec3>)
    ensures |TilesOf(s, rot, cells)| <= |cells|
    decreases |cells|
  {
    if cells != [] {
      TilesOfSize(s, rot, cells[1..]);
      assert TilesOf(s, rot, cells) == {TileOf(s, rot, cells[0])} + TilesOf(s, rot, cells[1..]);
    }
  }

}

=== FILE: runs.dfy ===
/**
 The run-length merging inside each boundary scan of `Silhouette.js`.

 One scan line is abstracted to the sequence of its per-column boundary tests
 (`true` where the tile is filled and its neighbour across the edge is empty).
 The scan keeps at most one open segment: it opens where the test turns true,
 is emitted where the test turns false, and is dropped if it is still open
 after the last column (the source resets `line` to `null` at the next row).
 */
module Runs {

  import opened Options

  /** Columns `start` up to, but not including, `end` form one segment. */
  datatype Run = Run(start: nat, end: nat)

  /**
   A maximal closed stretch of passing columns: it starts at the line's first
   column or right after a failing one, every column in it passes, and the
   column `end`, inside the line, fails.
   */
  ghost predicate IsRun(pat: seq<bool>, r: Run)
  {
    && r.start < r.end < |pat|
    && (r.start == 0 || !pat[r.start - 1])
    && (forall j :: r.start <= j < r.end ==> pat[j])
    && !pat[r.end]
  }

  /** The number of passing columns from column `k` on. */
  function CountFrom(pat: seq<bool>, k: nat): nat
    decreases |pat| - k
  {
    if k >= |pat| then 0 else (if pat[k] then 1 else 0) + CountFrom(pat, k + 1)
  }

  /** The number of columns the segments span together. */
  function TotalLength(runs: seq<Run>): int
  {
    if runs == [] then 0 else runs[0].end - runs[0].start + TotalLength(runs[1..])
  }

  /** The first column the scan from `k` can still emit a segment for. */
  function Lower(k: nat, open: Option<nat>): nat
  {
    if open.Some? then open.value else k
  }

  /** What the scan knows when it reaches column `k` with `open` as its pending segment. */
  ghost predicate ScanState(pat: seq<bool>, k: nat, open: Option<nat>)
  {
    && k <= |pat|
    && (open.Some? ==>
          && open.value < k
          && (open.value == 0 || !pat[open.value - 1])
          && forall j :: open.value <= j < k ==> pat[j])
    && (open.None? ==> k == 0 || !pat[k - 1])
  }

  /**
   The scan from column `k` on, with `open` as its pending segment: the
   segments it emits, in order.
   */
  function RowRuns(pat: seq<bool>, k: nat, open: Option<nat>): seq<Run>
    requires k <= |pat|
    decreases |pat| - k
  {
    if k == |pat| then []
    else if pat[k] then
      RowRuns(pat, k + 1, if open.None? then Some(k) else open)
    else if open.Some? then
      [Run(open.value, k)] + RowRuns(pat, k + 1, None)
    else
      RowRuns(pat, k + 1, None)
  }

  /** Segments strictly increasing and separated by at least one column. */
  ghost predicate Ordered(runs: seq<Run>)
  {
    forall i, j :: 0 <= i < j < |runs| ==> runs[i].end < runs[j].start
  }

  /**
   Every segment the scan from `k` emits is a maximal closed run starting at
   or after `Lower(k, open)`.
   */
  lemma {:induction false} RowRunsSound(pat: seq<bool>, k: nat, open: Option<nat>, i: nat)
    requires ScanState(pat, k, open)
    requires i < |RowRuns(pat, k, open)|
    ensures IsRun(pat, RowRuns(pat, k, open)[i])
    ensures Lower(k, open) <= RowRuns(pat, k, open)[i].start
    decreases |pat| - k
  {
    if k == |pat| {
      assert false;
    } else if pat[k] {
      RowRunsSound(pat, k + 1, if open.None? then Some(k) else open, i);
    } else if open.Some? {
      var rest := RowRuns(pat, k + 1, None);
      assert RowRuns(pat, k, open) == [Run(open.value, k)] + rest;
      if i > 0 {
        RowRunsSound(pat, k + 1, None, i - 1);
      }
    } else {
      RowRunsSound(pat, k + 1, None, i);
    }
  }

  /** The emitted segments come in order, separated by at least one column. */
  lemma {:induction false} RowRunsOrdered(pat: seq<bool>, k: nat, open: Option<nat>, i: nat, j: nat)
    requires ScanState(pat, k, open)
    requires i < j < |RowRuns(pat, k, open)|
    ensures RowRuns(pat, k, open)[i].end < RowRuns(pat, k, open)[j].start
    decreases |pat| - k
  {
    if k == |pat| {
      assert false;
    } else if pat[k] {
      RowRunsOrdered(pat, k + 1, if open.None? then Some(k) else open, i, j);
    } else if open.Some? {
      var rest := RowRuns(pat, k + 1, None);
      assert RowRuns(pat, k, open) == [Run(open.value, k)] + rest;
      if i == 0 {
        RowRunsSound(pat, k + 1, None, j - 1);
      } else {
        RowRunsOrdered(pat, k + 1, None, i - 1, j - 1);
      }
    } else {
      RowRunsOrdered(pat, k + 1, None, i, j);
    }
  }

  /** Every maximal closed run starting at or after `Lower(k, open)` is emitted. */
  lemma {:induction false} RowRunsComplete(pat: seq<bool>, k: nat, open: Option<nat>, run: Run)
    requires ScanState(pat, k, open)
    requires IsRun(pat, run) && Lower(k, open) <= run.start
    ensures run in RowRuns(pat, k, open)
    decreases |pat| - k
  {
    if k == |pat| {
    } else if pat[k] {
      RowRunsComplete(pat, k + 1, if open.None? then Some(k) else open, run);
    } else if open.Some? {
      if run.start <= k {
        assert run.start == open.value;
        assert run.end == k;
      } else {
        RowRunsComplete(pat, k + 1, None, run);
      }
    } else {
      RowRunsComplete(pat, k + 1, None, run);
    }
  }

  /**
   When the last column fails nothing is left open at the end of the line:
   every passing column from `Lower(k, open)` on lies in an emitted segment.
   */
  lemma {:induction false} RowRunsCover(pat: seq<bool>, k: nat, open: Option<nat>, j: nat)
    returns (i: nat)
    requires ScanState(pat, k, open)
    requires 0 < |pat| && !pat[|pat| - 1]
    requires Lower(k, open) <= j < |pat| && pat[j]
    ensures i < |RowRuns(pat, k, open)|
    ensures RowRuns(pat, k, open)[i].start <= j < RowRuns(pat, k, open)[i].end
    decreases |pat| - k
  {
    if k == |pat| {
      assert false;
    } else if pat[k] {
      var next := if open.None? then Some(k) else open;
      assert RowRuns(pat, k, open) == RowRuns(pat, k + 1, next);
      i := RowRunsCover(pat, k + 1, next, j);
    } else if open.Some? {
      var rest := RowRuns(pat, k + 1, None);
      assert RowRuns(pat, k, open) == [Run(open.value, k)] + rest;
      if j < k {
        i := 0;
      } else {
        var i' := RowRunsCover(pat, k + 1, None, j);
        assert rest[i'] == RowRuns(pat, k, open)[i' + 1];
        i := i' + 1;
      }
    } else {
      assert RowRuns(pat, k, open) == RowRuns(pat, k + 1, None);
      i := RowRunsCover(pat, k + 1, None, j);
    }
  }

  /**
   When the last column fails, the emitted segments together span exactly the
   passing columns: their lengths add up to the count of passing columns from
   `k` on, plus those already inside the open segment.
   */
  lemma {:induction false} RowRunsLength(pat: seq<bool>, k: nat, open: Option<nat>)
    requires ScanState(pat, k, open)
    requires 0 < |pat| && !pat[|pat| - 1]
    ensures TotalLength(RowRuns(pat, k, open)) == CountFrom(pat, k) + (k - Lower(k, open))
    decreases |pat| - k
  {
    if k == |pat| {
    } else if pat[k] {
      RowRunsLength(pat, k + 1, if open.None? then Some(k) else open);
    } else if open.Some? {
      RowRunsLength(pat, k + 1, None);
      var rest := RowRuns(pat, k + 1, None);
      assert RowRuns(pat, k, open) == [Run(open.value, k)] + rest;
      assert ([Run(open.value, k)] + rest)[1..] == rest;
    } else {
      RowRunsLength(pat, k + 1, None);
    }
  }

  /** The segments of a whole scan line. */
  function LineRuns(pat: seq<bool>): seq<Run>
  {
    RowRuns(pat, 0, None)
  }

  /**
   The segments of a scan line are exactly its maximal closed runs, in order;
   when its last column fails, every passing column is in one of them and
   their lengths add up to the number of passing columns.
   */
  lemma LineRunsExact(pat: seq<bool>)
    ensures forall run :: IsRun(pat, run) <==> run in LineRuns(pat)
    ensures Ordered(LineRuns(pat))
    ensures 0 < |pat| && !pat[|pat| - 1] ==>
      forall j :: 0 <= j < |pat| && pat[j] ==>
        exists i :: 0 <= i < |LineRuns(pat)| && LineRuns(pat)[i].start <= j < LineRuns(pat)[i].end
    ensures 0 < |pat| && !pat[|pat| - 1] ==> TotalLength(LineRuns(pat)) == CountFrom(pat, 0)
  {
    var runs := LineRuns(pat);
    assert runs == RowRuns(pat, 0, None);
    forall i | 0 <= i < |LineRuns(pat)|
      ensures IsRun(pat, LineRuns(pat)[i])
    {
      RowRunsSound(pat, 0, None, i);
    }
    forall i, j | 0 <= i < j < |LineRuns(pat)|
      ensures LineRuns(pat)[i].end < LineRuns(pat)[j].start
    {
      RowRunsOrdered(pat, 0, None, i, j);
    }
    forall run | IsRun(pat, run)
      ensures run in LineRuns(pat)
    {
      RowRunsComplete(pat, 0, None, run);
    }
    if 0 < |pat| && !pat[|pat| - 1] {
      forall j | 0 <= j < |pat| && pat[j]
        ensures exists i :: 0 <= i < |LineRuns(pat)| && LineRuns(pat)[i].start <= j < LineRuns(pat)[i].end
      {
        var i := RowRunsCover(pat, 0, None, j);
        assert 0 <= i < |runs| && runs[i].start <= j < runs[i].end;
      }
      RowRunsLength(pat, 0, None);
    }
  }

}

=== FILE: silhouette.dfy ===
/**
 The silhouette of `Silhouette.js`: a set of 2D tiles, the bounds they have
 pushed out from the origin, and the outline traced around them.

 All coordinates are in half units (twice the source's value): tiles of a
 centred structure may sit on the half-integer lattice, and outline corners
 always do. Neighbouring tiles are therefore `Step` = 2 apart.

 The tile map is keyed, in the source, by the string form of a 2D vector; the
 vector itself is the key here. `tiles` maps each key to the value `set` was
 given for it (in every call the source makes, the vector the key was formed
 from).
 */
module Silhouettes {

  import opened Runs
  import Lattice

  /** A point of the plane, in half units. */
  datatype Pt = Pt(x: int, y: int)

  /** The distance between neighbouring tiles, in half units. */
  const Step: int := 2

  /**
   One outline segment (`Line`): its two corners, and for each corner the
   tile the corner is anchored to when the outline is scaled.
   */
  datatype Line = Line(point0: Pt, pivot0: Pt, point1: Pt, pivot1: Pt)

  datatype Silhouette = Silhouette(
    tiles: map<Pt, Pt>,
    outline: seq<Line>,
    negBound: Pt,
    posBound: Pt)

  /** `p` lies in the closed rectangle spanned by `lo` and `hi`. */
  predicate Within(p: Pt, lo: Pt, hi: Pt)
  {
    lo.x <= p.x <= hi.x && lo.y <= p.y <= hi.y
  }

  /**
   The bounds contain the origin and every stored value, and every key is a
   stored value's own position (as every caller of `set` in the source keeps).
   */
  ghost predicate WellFormed(s: Silhouette)
  {
    && Within(Pt(0, 0), s.negBound, s.posBound)
    && forall k :: k in s.tiles ==> s.tiles[k] == k && Within(k, s.negBound, s.posBound)
  }

  /**
   Each bound component is the origin's or some tile's: the bounds never
   reach further than the origin and the tiles need.
   */
  ghost predicate BoundsAttained(s: Silhouette)
  {
    && (s.negBound.x == 0 || exists k :: k in s.tiles && k.x == s.negBound.x)
    && (s.negBound.y == 0 || exists k :: k in s.tiles && k.y == s.negBound.y)
    && (s.posBound.x == 0 || exists k :: k in s.tiles && k.x == s.posBound.x)
    && (s.posBound.y == 0 || exists k :: k in s.tiles && k.y == s.posBound.y)
  }

  /*** Construction and insertion ***/

  /** The constructor: no tiles, no outline, both bounds at the origin. */
  function New(): (s: Silhouette)
    ensures WellFormed(s) && BoundsAttained(s)
  {
    Silhouette(map[], [], Pt(0, 0), Pt(0, 0))
  }

  /**
   `set(key, value)`: widen the bounds just enough to contain `value`, then
   store `value` under `key`, adding or overwriting that key alone.
   */
  function Set(s: Silhouette, key: Pt, value: Pt): (r: Silhouette)
    ensures key in r.tiles && r.tiles[key] == value
    ensures forall k :: k != key ==> (k in r.tiles <==> k in s.tiles)
    ensures forall k :: k != key && k in s.tiles ==> r.tiles[k] == s.tiles[k]
    ensures Within(value, r.negBound, r.posBound)
    ensures r.negBound.x <= s.negBound.x && r.negBound.y <= s.negBound.y
    ensures r.posBound.x >= s.posBound.x && r.posBound.y >= s.posBound.y
    ensures r.negBound.x == s.negBound.x || r.negBound.x == value.x
    ensures r.negBound.y == s.negBound.y || r.negBound.y == value.y
    ensures r.posBound.x == s.posBound.x || r.posBound.x == value.x
    ensures r.posBound.y == s.posBound.y || r.posBound.y == value.y
    ensures r.outline == s.outline
    ensures WellFormed(s) && key == value ==> WellFormed(r)
    ensures BoundsAttained(s) && key == value ==> BoundsAttained(r)
  {
    Silhouette(
      s.tiles[key := value],
      s.outline,
      Pt(Lattice.Min(s.negBound.x, value.x), Lattice.Min(s.negBound.y, value.y)),
      Pt(Lattice.Max(s.posBound.x, value.x), Lattice.Max(s.posBound.y, value.y)))
  }

  /*** Equality ***/

  /** A subset as large as its superset is the whole superset. */
  lemma SubsetOfSameSize(a: set<Pt>, b: set<Pt>)
    requires a <= b && |a| == |b|
    ensures a == b
  {
    if a != b {
      var p :| p in b && p !in a;
      assert a <= b - {p};
      SubsetNoLarger(a, b - {p});
    }
  }

  lemma {:induction false} SubsetNoLarger(a: set<Pt>, b: set<Pt>)
    requires a <= b
    ensures |a| <= |b|
    decreases b
  {
    if a != {} {
      var p :| p in a;
      SubsetNoLarger(a - {p}, b - {p});
    }
  }

  /**
   `isEqual`: the two tile maps have the same size and every key of the first
   is a key of the second, which is exactly equality of the key sets. Values,
   outline and bounds take no part.
   */
  function IsEqual(a: Silhouette, b: Silhouette): (r: bool)
    ensures r <==> a.tiles.Keys == b.tiles.Keys
  {
    var sameSize := |a.tiles| == |b.tiles|;
    var covered := forall key :: key in a.tiles ==> key in b.tiles;
    if sameSize && covered then
      assert |a.tiles.Keys| == |b.tiles.Keys|;
      SubsetOfSameSize(a.tiles.Keys, b.tiles.Keys);
      true
    else
      false
  }

  /**
   Equality of footprints is an equivalence, and it does not look at the
   outline or the bounds.
   */
  lemma IsEqualIsEquivalence(a: Silhouette, b: Silhouette, c: Silhouette, outline: seq<Line>)
    ensures IsEqual(a, a)
    ensures IsEqual(a, b) == IsEqual(b, a)
    ensures IsEqual(a, b) && IsEqual(b, c) ==> IsEqual(a, c)
    ensures IsEqual(a, b) == IsEqual(a.(outline := outline, negBound := c.negBound, posBound := c.posBound), b)
  {
  }

  /*** The four boundary scans ***/

  /**
   The four scans. North and south scans walk each row (`y`) from west to
   east; east and west scans walk each column (`x`) from south to north.
   */
  datatype Side = North | South | East | West

  /** Rows for north and south scans, columns for east and west. */
  predicate ScansRows(d: Side)
  {
    d == North || d == South
  }

  /** The tile at position `u` along scan line `v`. */
  function TileAt(d: Side, u: int, v: int): Pt
  {
    if ScansRows(d) then Pt(u, v) else Pt(v, u)
  }

  /** The neighbour across the edge the scan is looking for. */
  function Across(d: Side, t: Pt): Pt
  {
    match d
    case North => Pt(t.x, t.y + Step)
    case South => Pt(t.x, t.y - Step)
    case East => Pt(t.x + Step, t.y)
    case West => Pt(t.x - Step, t.y)
  }

  /** The neighbour one position back along the scan line: west in a row, south in a column. */
  function Back(d: Side, t: Pt): Pt
  {
    if ScansRows(d) then Pt(t.x - Step, t.y) else Pt(t.x, t.y - Step)
  }

  /** The diagonal neighbour: across the edge from the one behind (north-west for north, and so on). */
  function Diagonal(d: Side, t: Pt): Pt
  {
    Across(d, Back(d, t))
  }

  /**
   The outline corner a segment starts or ends at when it starts or ends at
   tile `t`: half a tile back along the line and half a tile across the edge.
   */
  function Corner(d: Side, t: Pt): Pt
  {
    match d
    case North => Pt(t.x - 1, t.y + 1)
    case South => Pt(t.x - 1, t.y - 1)
    case East => Pt(t.x + 1, t.y - 1)
    case West => Pt(t.x - 1, t.y - 1)
  }

  /** `t` is filled and its neighbour across the edge is empty: the edge is on the outline. */
  predicate Exposed(tiles: map<Pt, Pt>, d: Side, t: Pt)
  {
    t in tiles && Across(d, t) !in tiles
  }

  /** The pivot of a segment's first corner: the tile itself unless the diagonal neighbour is filled. */
  function StartPivot(tiles: map<Pt, Pt>, d: Side, t: Pt): Pt
  {
    if Diagonal(d, t) !in tiles then t else Back(d, t)
  }

  /** The pivot of a segment's last corner, `t` being the first tile past it. */
  function EndPivot(tiles: map<Pt, Pt>, d: Side, t: Pt): Pt
  {
    if Across(d, t) !in tiles then Back(d, t) else t
  }

  /** The extent of one scan line: its first position, and how many positions it visits. */
  datatype Extent = Extent(lo: int, count: nat)

  /** The number of positions `lo, lo + Step, ...` not beyond `hi`. */
  function Positions(lo: int, hi: int): nat
  {
    if hi < lo then 0 else (hi - lo) / Step + 1
  }

  /**
   The positions the scan walks along each line: from the lower bound to one
   tile past the upper bound, so the last position never holds a tile.
   */
  function Along(s: Silhouette, d: Side): Extent
  {
    if ScansRows(d) then Extent(s.negBound.x, Positions(s.negBound.x, s.posBound.x + Step))
    else Extent(s.negBound.y, Positions(s.negBound.y, s.posBound.y + Step))
  }

  /** The lines the scan visits: every row (or column) from the lower bound to the upper one. */
  function LinesScanned(s: Silhouette, d: Side): Extent
  {
    if ScansRows(d) then Extent(s.negBound.y, Positions(s.negBound.y, s.posBound.y))
    else Extent(s.negBound.x, Positions(s.negBound.x, s.posBound.x))
  }

  /** The tile at the `k`th position of scan line `v`. */
  function Column(d: Side, e: Extent, k: int, v: int): Pt
  {
    TileAt(d, e.lo + Step * k, v)
  }

  /** The boundary test at each position of scan line `v`. */
  function Pattern(tiles: map<Pt, Pt>, d: Side, e: Extent, v: int): seq<bool>
  {
    seq(e.count, k => Exposed(tiles, d, Column(d, e, k, v)))
  }

  /** The segment for a run of exposed positions: its corners and their pivots. */
  function LineOf(tiles: map<Pt, Pt>, d: Side, e: Extent, v: int, run: Run): Line
  {
    var first := Column(d, e, run.start, v);
    var past := Column(d, e, run.end, v);
    Line(Corner(d, first), StartPivot(tiles, d, first), Corner(d, past), EndPivot(tiles, d, past))
  }

  /** The segments one scan line contributes, in the order the source pushes them. */
  function ScanLine(tiles: map<Pt, Pt>, d: Side, e: Extent, v: int): seq<Line>
  {
    var runs := LineRuns(Pattern(tiles, d, e, v));
    seq(|runs|, i requires 0 <= i < |runs| => LineOf(tiles, d, e, v, runs[i]))
  }

  /** The segments of all scan lines, line after line. */
  function Concat(lss: seq<seq<Line>>): seq<Line>
  {
    if lss == [] then [] else lss[0] + Concat(lss[1..])
  }

  /** The segments of each scanned line, line by line. */
  function ScanRows(s: Silhouette, d: Side): seq<seq<Line>>
  {
    var lines := LinesScanned(s, d);
    seq(lines.count, r => ScanLine(s.tiles, d, Along(s, d), lines.lo + Step * r))
  }

  /** One whole boundary scan: the segments of every scanned line, in scan order. */
  function Scan(s: Silhouette, d: Side): seq<Line>
  {
    Concat(ScanRows(s, d))
  }

  /**
   `generateNorthLines`: append the north scan's segments to the outline,
   keeping what is there and touching neither tiles nor bounds.
   */
  function GenerateNorthLines(s: Silhouette): (r: Silhouette)
    ensures r.tiles == s.tiles && r.negBound == s.negBound && r.posBound == s.posBound
    ensures |s.outline| <= |r.outline| && r.outline[..|s.outline|] == s.outline
    ensures r.outline == s.outline + Scan(s, North)
  {
    s.(outline := s.outline + Scan(s, North))
  }

  /** `generateSouthLines`: the same for the south scan. */
  function GenerateSouthLines(s: Silhouette): (r: Silhouette)
    ensures r.tiles == s.tiles && r.negBound == s.negBound && r.posBound == s.posBound
    ensures |s.outline| <= |r.outline| && r.outline[..|s.outline|] == s.outline
    ensures r.outline == s.outline + Scan(s, South)
  {
    s.(outline := s.outline + Scan(s, South))
  }

  /** `generateEastLines`: the same for the east scan. */
  function GenerateEastLines(s: Silhouette): (r: Silhouette)
    ensures r.tiles == s.tiles && r.negBound == s.negBound && r.posBound == s.posBound
    ensures |s.outline| <= |r.outline| && r.outline[..|s.outline|] == s.outline
    ensures r.outline == s.outline + Scan(s, East)
  {
    s.(outline := s.outline + Scan(s, East))
  }

  /** `generateWestLines`: the same for the west scan. */
  function GenerateWestLines(s: Silhouette): (r: Silhouette)
    ensures r.tiles == s.tiles && r.negBound == s.negBound && r.posBound == s.posBound
    ensures |s.outline| <= |r.outline| && r.outline[..|s.outline|] == s.outline
    ensures r.outline == s.outline + Scan(s, West)
  {
    s.(outline := s.outline + Scan(s, West))
  }

  /**
   `generateOutline`: the north, south, east and west segments are appended
   in that order; tiles and bounds are untouched.
   */
  function GenerateOutline(s: Silhouette): (r: Silhouette)
    ensures r.tiles == s.tiles && r.negBound == s.negBound && r.posBound == s.posBound
    ensures r.outline == s.outline + Scan(s, North) + Scan(s, South) + Scan(s, East) + Scan(s, West)
  {
    var north := GenerateNorthLines(s);
    SameScans(s, north);
    var south := GenerateSouthLines(north);
    SameScans(s, south);
    var east := GenerateEastLines(south);
    SameScans(s, east);
    GenerateWestLines(east)
  }

  /** The scans read only the tiles and the bounds, never the outline. */
  lemma SameScans(a: Silhouette, b: Silhouette)
    requires a.tiles == b.tiles && a.negBound == b.negBound && a.posBound == b.posBound
    ensures forall d :: Scan(a, d) == Scan(b, d)
  {
  }

}

=== FILE: structure.dfy ===
/**
 The growing voxel structure of `Structure.js`.

 The structure keeps the cubes already placed (`cubes`), the empty cells it
 may grow into next (`adjacentCubes`, called the frontier here) and the one
 cube placed most recently (`latestCube`), which is not yet in `cubes`. Both
 maps are modelled by their key sequences in insertion order, which is the
 order a JavaScript `Map` iterates in. Of the cube objects stored as values,
 the core reads nothing but their position, which is the key.

 The centre (`position` in the source) moves in steps of one half, so it is
 kept in half units: `center` is twice the source's vector.
 */
module Structures {

  import opened Options
  import opened Lattice

  /** No key occurs twice: what a `Map`'s key sequence always satisfies. */
  predicate Distinct(s: seq<Vec3>)
  {
    forall i, j :: 0 <= i < j < |s| ==> s[i] != s[j]
  }

  datatype Structure = Structure(
    cubes: seq<Vec3>,     // keys of `cubes`, in insertion order
    frontier: seq<Vec3>,  // keys of `adjacentCubes`, in insertion order
    latest: Vec3,         // position of `latestCube`
    negBound: Vec3,
    posBound: Vec3,
    center: Vec3,         // twice `position`
    diameter: int)

  /** Every cell the structure occupies: the placed cubes, then the latest one. */
  function Occupied(s: Structure): seq<Vec3>
  {
    s.cubes + [s.latest]
  }

  /*** Invariants ***/

  /** `lo` and `hi` are the componentwise minimum and maximum of `cells`. */
  ghost predicate ExactBox(cells: seq<Vec3>, lo: Vec3, hi: Vec3)
  {
    && (forall c :: c in cells ==> InBox(c, lo, hi))
    && Attains(cells, X, lo, hi)
    && Attains(cells, Y, lo, hi)
    && Attains(cells, Z, lo, hi)
  }

  /** Some cell of `cells` lies on the low face, and some on the high face, along `a`. */
  ghost predicate Attains(cells: seq<Vec3>, a: Axis, lo: Vec3, hi: Vec3)
  {
    && (exists c :: c in cells && Coord(c, a) == Coord(lo, a))
    && (exists c :: c in cells && Coord(c, a) == Coord(hi, a))
  }

  /**
   The frontier holds exactly the empty cells that share a face with a placed
   cube, other than the latest cube itself.
   */
  ghost predicate FrontierIsBoundary(s: Structure)
  {
    && (forall q :: q in s.frontier ==>
          q !in s.cubes && q != s.latest && exists c :: c in s.cubes && Adjacent(c, q))
    && (forall c, q :: c in s.cubes && Adjacent(c, q) && q !in s.cubes && q != s.latest ==>
          q in s.frontier)
  }

  ghost predicate Valid(s: Structure)
  {
    && Distinct(s.cubes)
    && Distinct(s.frontier)
    && s.latest !in s.cubes
    && FrontierIsBoundary(s)
    && (|s.cubes| > 0 ==> exists c :: c in s.cubes && Adjacent(c, s.latest))
    && ExactBox(Occupied(s), s.negBound, s.posBound)
    && s.center == Add(s.negBound, s.posBound)
    && s.diameter == 1 + MaxSpan(s.negBound, s.posBound)
  }

  /*** Construction ***/

  /** The constructor: one cube at the origin, nothing placed, unit diameter. */
  function New(): Structure
  {
    Structure([], [], Origin, Origin, Origin, Origin, 1)
  }

  /*** Map key bookkeeping ***/

  /** The keys of a map after `set(key, ...)`: a new key goes last, an existing one keeps its place. */
  function SetKey(keys: seq<Vec3>, key: Vec3): (r: seq<Vec3>)
    ensures forall q :: q in r <==> q in keys || q == key
    ensures key !in keys ==> r == keys + [key]
    ensures key in keys ==> r == keys
    ensures Distinct(keys) ==> Distinct(r)
    ensures |r| == |keys| + (if key in keys then 0 else 1)
  {
    if key in keys then keys
    else
      if Distinct(keys) then DistinctAppend(keys, key); keys + [key]
      else keys + [key]
  }

  /** The keys of a map after `delete(key)`. */
  function DeleteKey(keys: seq<Vec3>, key: Vec3): (r: seq<Vec3>)
    ensures forall q :: q in r ==> q in keys
    ensures Distinct(keys) ==> Distinct(r) && forall q :: q in r <==> q in keys && q != key
    ensures Distinct(keys) && key in keys ==> |r| == |keys| - 1
  {
    if keys == [] then []
    else if keys[0] == key then keys[1..]
    else
      var rest := DeleteKey(keys[1..], key);
      assert Distinct(keys) ==> keys[0] !in keys[1..];
      [keys[0]] + rest
  }

  /**
   The loop of `addAdjacentCubes`: each candidate absent from both `cubes` and
   `frontier` is appended to `frontier`; nothing already there is touched.
   */
  function InsertAbsent(cubes: seq<Vec3>, frontier: seq<Vec3>, candidates: seq<Vec3>): (r: seq<Vec3>)
    ensures |frontier| <= |r| && r[..|frontier|] == frontier
    ensures forall q :: q in r <==> q in frontier || (q in candidates && q !in cubes)
    ensures Distinct(frontier) ==> Distinct(r)
    decreases |candidates|
  {
    if candidates == [] then frontier
    else
      var c := candidates[0];
      var next := if c !in cubes && c !in frontier then frontier + [c] else frontier;
      InsertAbsent(cubes, next, candidates[1..])
  }

  /*** Operations ***/

  /** `addAdjacentCubes`: the face neighbours of the latest cube join the frontier unless known. */
  function AddAdjacentCubes(s: Structure): (r: Structure)
    ensures r == s.(frontier := r.frontier)
    ensures |s.frontier| <= |r.frontier| && r.frontier[..|s.frontier|] == s.frontier
    ensures forall q :: q in r.frontier <==>
      q in s.frontier || (Adjacent(s.latest, q) && q !in s.cubes)
    ensures Distinct(s.frontier) ==> Distinct(r.frontier)
  {
    s.(frontier := InsertAbsent(s.cubes, s.frontier, Neighbours(s.latest)))
  }

  /** The frontier `addCube` draws from: after the latest cube is placed and its neighbours added. */
  function Candidates(s: Structure): seq<Vec3>
  {
    AddAdjacentCubes(s.(cubes := SetKey(s.cubes, s.latest))).frontier
  }

  /**
   `Random.randomEntryInMap`: the key at position `draw`, where `draw` stands
   for the random integer in `[0, size - 1]`; no key when the map is empty.
   */
  function RandomEntryInMap(keys: seq<Vec3>, draw: nat): (r: Option<Vec3>)
    requires |keys| == 0 || draw < |keys|
    ensures r.None? <==> |keys| == 0
    ensures r.Some? ==> r.value in keys
  {
    if |keys| == 0 then None else Some(keys[draw])
  }

  /** `draw` is a value the random source can produce for the frontier `addCube` draws from. */
  predicate DrawInRange(s: Structure, draw: nat)
  {
    |Candidates(s)| == 0 || draw < |Candidates(s)|
  }

  /**
   `addCube`: place the latest cube, extend the frontier around it, take the
   drawn frontier cell as the new latest cube and widen the bounds for it.
   The result carries the centre's displacement (in half units), if any.
   `None` is the source's failure when the frontier is empty (`latestCube`
   becomes undefined and `updateBounds` throws).
   */
  function AddCube(s: Structure, draw: nat): (r: Option<(Structure, Option<Vec3>)>)
    requires DrawInRange(s, draw)
    ensures r.None? <==> |Candidates(s)| == 0
    ensures r.Some? ==> r.value.0.cubes == SetKey(s.cubes, s.latest)
    ensures r.Some? ==> r.value.0.latest in Candidates(s)
    ensures r.Some? ==> forall q :: q in r.value.0.frontier ==> q in Candidates(s)
    ensures r.Some? ==> (r.value.1.None? <==> InBox(r.value.0.latest, s.negBound, s.posBound))
    ensures r.Some? && r.value.1.Some? ==> r.value.0.center == Add(s.center, r.value.1.value)
    ensures r.Some? && Distinct(Candidates(s)) ==> r.value.0.latest !in r.value.0.frontier
    ensures r.Some? && Distinct(Candidates(s)) ==>
      forall q :: q in r.value.0.frontier <==> q in Candidates(s) && q != r.value.0.latest
  {
    var placed := s.(cubes := SetKey(s.cubes, s.latest));
    var grown := AddAdjacentCubes(placed);
    match RandomEntryInMap(grown.frontier, draw)
    case None => None
    case Some(key) =>
      var picked := grown.(latest := key, frontier := DeleteKey(grown.frontier, key));
      Some(UpdateBounds(picked))
  }

  /**
   The box `[lo', hi']` is `[lo, hi]` pushed out by one unit on exactly one
   face: one component of one bound moves, by one, outwards.
   */
  predicate OneStepWider(lo: Vec3, hi: Vec3, lo': Vec3, hi': Vec3)
  {
    && lo'.x <= lo.x && lo'.y <= lo.y && lo'.z <= lo.z
    && hi.x <= hi'.x && hi.y <= hi'.y && hi.z <= hi'.z
    && (lo.x - lo'.x) + (lo.y - lo'.y) + (lo.z - lo'.z)
       + (hi'.x - hi.x) + (hi'.y - hi.y) + (hi'.z - hi.z) == 1
  }

  /**
   `updateBounds`: when the latest cube lies outside the box, push the first
   offending face (checked -x, -y, -z, +x, +y, +z) out by one and move the
   centre; otherwise report no movement.
   */
  function UpdateBounds(s: Structure): (r: (Structure, Option<Vec3>))
    ensures r.1.None? <==> InBox(s.latest, s.negBound, s.posBound)
    ensures r.1.None? ==> r.0 == s
    ensures r.0.cubes == s.cubes && r.0.frontier == s.frontier && r.0.latest == s.latest
    ensures r.1.Some? ==> OneStepWider(s.negBound, s.posBound, r.0.negBound, r.0.posBound)
    ensures r.1.Some? ==> Add(r.0.negBound, r.0.posBound) == Add(Add(s.negBound, s.posBound), r.1.value)
    ensures r.1.Some? ==> r.0.center == Add(s.center, r.1.value)
    ensures s.diameter <= r.0.diameter <= s.diameter + 1
  {
    var p := s.latest;
    if p.x < s.negBound.x then Moved(UpdateNegBound(s, Unit(X, false)))
    else if p.y < s.negBound.y then Moved(UpdateNegBound(s, Unit(Y, false)))
    else if p.z < s.negBound.z then Moved(UpdateNegBound(s, Unit(Z, false)))
    else if p.x > s.posBound.x then Moved(UpdatePosBound(s, Unit(X, true)))
    else if p.y > s.posBound.y then Moved(UpdatePosBound(s, Unit(Y, true)))
    else if p.z > s.posBound.z then Moved(UpdatePosBound(s, Unit(Z, true)))
    else (s, None)
  }

  function Moved(step: (Structure, Vec3)): (Structure, Option<Vec3>)
  {
    (step.0, Some(step.1))
  }

  /** `updateNegBound`: the lower bound moves by `direction`, then the centre follows. */
  function UpdateNegBound(s: Structure, direction: Vec3): (r: (Structure, Vec3))
    ensures r.0 == s.(negBound := r.0.negBound, center := r.0.center, diameter := r.0.diameter)
    ensures r.0.negBound == Add(s.negBound, direction) && r.0.posBound == s.posBound
    ensures r.1 == direction && r.0.center == Add(s.center, r.1)
    ensures s.diameter <= r.0.diameter <= s.diameter + 1
  {
    MoveCenter(s.(negBound := Add(s.negBound, direction)), direction)
  }

  /** `updatePosBound`: the upper bound moves by `direction`, then the centre follows. */
  function UpdatePosBound(s: Structure, direction: Vec3): (r: (Structure, Vec3))
    ensures r.0 == s.(posBound := r.0.posBound, center := r.0.center, diameter := r.0.diameter)
    ensures r.0.posBound == Add(s.posBound, direction) && r.0.negBound == s.negBound
    ensures r.1 == direction && r.0.center == Add(s.center, r.1)
    ensures s.diameter <= r.0.diameter <= s.diameter + 1
  {
    MoveCenter(s.(posBound := Add(s.posBound, direction)), direction)
  }

  /**
   `moveCenter`: grow the diameter by one if some side of the (already
   widened) box now exceeds it, and shift the centre by half of `direction`.
   In half units that shift is `direction` itself, and it is returned.
   */
  function MoveCenter(s: Structure, direction: Vec3): (r: (Structure, Vec3))
    ensures r.0 == s.(center := r.0.center, diameter := r.0.diameter)
    ensures r.0.center == Add(s.center, r.1) && r.1 == direction
    ensures s.diameter <= r.0.diameter <= s.diameter + 1
    ensures r.0.diameter == s.diameter + 1 <==> 1 + MaxSpan(s.negBound, s.posBound) > s.diameter
  {
    var grows :=
      || s.posBound.x - s.negBound.x + 1 > s.diameter
      || s.posBound.y - s.negBound.y + 1 > s.diameter
      || s.posBound.z - s.negBound.z + 1 > s.diameter;
    var translation := direction;
    (s.(diameter := if grows then s.diameter + 1 else s.diameter,
        center := Add(s.center, translation)),
     translation)
  }


  /*** Properties ***/

  lemma NewIsValid()
    ensures Valid(New())
    ensures Occupied(New()) == [Origin]
    ensures Distinct(Occupied(New()))
  {
    var s := New();
    assert Occupied(s) == [Origin];
    assert ExactBox(Occupied(s), Origin, Origin) by {
      assert Origin in Occupied(s);
    }
    assert MaxSpan(Origin, Origin) == 0;
  }

  /** Appending a key that is not there keeps a key sequence free of repeats. */
  lemma DistinctAppend(keys: seq<Vec3>, key: Vec3)
    requires Distinct(keys) && key !in keys
    ensures Distinct(keys + [key])
  {
    var r := keys + [key];
    forall i, j | 0 <= i < j < |r|
      ensures r[i] != r[j]
    {
      if j == |keys| {
        assert r[i] == keys[i];
      } else {
        assert r[i] == keys[i] && r[j] == keys[j];
      }
    }
  }

  /**
   A cell adjacent to some cell of a box is outside it on at most one face, by
   one unit, so the single widening `updateBounds` performs brings it inside,
   and every bound either keeps its value or takes the cell's coordinate.
   */
  lemma UpdateBoundsCovers(s: Structure, c: Vec3)
    requires InBox(c, s.negBound, s.posBound) && Adjacent(c, s.latest)
    ensures var r := UpdateBounds(s).0;
      && InBox(s.latest, r.negBound, r.posBound)
      && forall a :: (Coord(r.negBound, a) == Coord(s.negBound, a) || Coord(r.negBound, a) == Coord(s.latest, a))
                  && (Coord(r.posBound, a) == Coord(s.posBound, a) || Coord(r.posBound, a) == Coord(s.latest, a))
  {
  }

  /** A face of the box still attained after widening towards one more cell. */
  lemma AttainsWiden(cells: seq<Vec3>, extra: Vec3, a: Axis, lo: Vec3, hi: Vec3, lo': Vec3, hi': Vec3)
    requires Attains(cells, a, lo, hi)
    requires Coord(lo', a) == Coord(lo, a) || Coord(lo', a) == Coord(extra, a)
    requires Coord(hi', a) == Coord(hi, a) || Coord(hi', a) == Coord(extra, a)
    ensures Attains(cells + [extra], a, lo', hi')
  {
    var w :| w in cells && Coord(w, a) == Coord(lo, a);
    var v :| v in cells && Coord(v, a) == Coord(hi, a);
    assert w in cells + [extra] && v in cells + [extra] && extra in cells + [extra];
  }

  /** Widening a box by one face grows its largest side by at most one. */
  lemma MaxSpanStep(lo: Vec3, hi: Vec3, lo': Vec3, hi': Vec3)
    requires OneStepWider(lo, hi, lo', hi')
    ensures MaxSpan(lo', hi') == MaxSpan(lo, hi) || MaxSpan(lo', hi') == MaxSpan(lo, hi) + 1
  {
  }

  /**
   With the latest cube next to a placed cube, `updateBounds` makes the bounds
   the exact componentwise minimum and maximum of all occupied cells, keeps the
   centre at the middle of the box and the diameter one more than its largest
   side.
   */
  lemma UpdateBoundsKeepsExact(s: Structure, c: Vec3)
    requires ExactBox(s.cubes, s.negBound, s.posBound)
    requires c in s.cubes && Adjacent(c, s.latest)
    requires s.center == Add(s.negBound, s.posBound)
    requires s.diameter == 1 + MaxSpan(s.negBound, s.posBound)
    ensures var r := UpdateBounds(s).0;
      && ExactBox(Occupied(s), r.negBound, r.posBound)
      && r.center == Add(r.negBound, r.posBound)
      && r.diameter == 1 + MaxSpan(r.negBound, r.posBound)
  {
    var r := UpdateBounds(s).0;
    UpdateBoundsCovers(s, c);
    forall d | d in Occupied(s)
      ensures InBox(d, r.negBound, r.posBound)
    {
      if d != s.latest {
        assert d in s.cubes;
      }
    }
    AttainsWiden(s.cubes, s.latest, X, s.negBound, s.posBound, r.negBound, r.posBound);
    AttainsWiden(s.cubes, s.latest, Y, s.negBound, s.posBound, r.negBound, r.posBound);
    AttainsWiden(s.cubes, s.latest, Z, s.negBound, s.posBound, r.negBound, r.posBound);
    if UpdateBounds(s).1.Some? {
      MaxSpanStep(s.negBound, s.posBound, r.negBound, r.posBound);
    }
  }

  /**
   In a valid structure `addCube` always finds a frontier cell: one step past
   the cube on the high x face is empty and touches the structure.
   */
  lemma CandidatesNonEmpty(s: Structure)
    requires Valid(s)
    ensures |Candidates(s)| > 0
  {
    var c :| c in Occupied(s) && c.x == s.posBound.x;
    var q := Vec3(c.x + 1, c.y, c.z);
    assert Adjacent(c, q);
    assert q !in Occupied(s);
    if c == s.latest {
      assert Adjacent(s.latest, q);
    } else {
      assert c in s.cubes;
      assert q in s.frontier;
    }
    assert q in Candidates(s);
  }

  /**
   `addCube` on a valid structure succeeds, places exactly the previous latest
   cube (so the cube count grows by one), and leaves a valid structure: cubes
   and frontier disjoint, the frontier exactly the empty face neighbours of the
   structure, the new latest cube in neither map but touching a placed cube,
   and exact bounds, centre and diameter.
   */
  lemma AddCubeKeepsValid(s: Structure, draw: nat)
    requires Valid(s) && DrawInRange(s, draw)
    ensures AddCube(s, draw).Some?
    ensures var s' := AddCube(s, draw).value.0;
      && Valid(s')
      && s'.cubes == s.cubes + [s.latest]
      && |s'.cubes| == |s.cubes| + 1
      && Occupied(s') == Occupied(s) + [s'.latest]
  {
    var placed := s.(cubes := SetKey(s.cubes, s.latest));
    assert placed.cubes == Occupied(s);
    var cand := Candidates(s);
    CandidatesNonEmpty(s);
    var key := cand[draw];
    var picked := AddAdjacentCubes(placed).(latest := key, frontier := DeleteKey(cand, key));
    assert AddCube(s, draw) == Some(UpdateBounds(picked));
    var s' := UpdateBounds(picked).0;
    assert s'.cubes == Occupied(s) && s'.latest == key && s'.frontier == DeleteKey(cand, key);
    assert forall q :: q in cand <==> q in s.frontier || (Adjacent(s.latest, q) && q !in Occupied(s));
    assert Distinct(cand);

    // Every candidate is empty and touches an occupied cell.
    forall q | q in cand
      ensures q !in Occupied(s) && exists c :: c in Occupied(s) && Adjacent(c, q)
    {
      if q in s.frontier {
        var c :| c in s.cubes && Adjacent(c, q);
        assert c in Occupied(s);
      } else {
        assert s.latest in Occupied(s);
      }
    }

    DistinctAppend(s.cubes, s.latest);
    assert FrontierIsBoundary(s') by {
      forall c, q | c in s'.cubes && Adjacent(c, q) && q !in s'.cubes && q != s'.latest
        ensures q in s'.frontier
      {
        if c == s.latest {
          assert q in cand;
        } else {
          assert c in s.cubes;
          assert q in s.frontier;
        }
      }
    }
    var c :| c in Occupied(s) && Adjacent(c, key);
    UpdateBoundsKeepsExact(picked, c);
    assert Occupied(s') == Occupied(picked);
  }

  /** One `addCube` call with random value `draw` turns `p` into `s`. */
  predicate Grows(p: Structure, draw: nat, s: Structure)
  {
    DrawInRange(p, draw) && AddCube(p, draw).Some? && AddCube(p, draw).value.0 == s
  }

  /**
   `states` is a game's history: the constructor's structure, then one
   `addCube` call per entry of `draws`, the values the random source drew.
   */
  ghost predicate IsHistory(states: seq<Structure>, draws: seq<nat>)
    decreases |draws|
  {
    && |states| == |draws| + 1
    && if draws == [] then states[0] == New()
       else
         var n := |draws| - 1;
         && IsHistory(states[..|draws|], draws[..n])
         && Grows(states[n], draws[n], states[|draws|])
  }

  /**
   After the calls of `addCube` recorded in `draws` the structure is valid and
   occupies one more distinct cell than there were calls, one placed per call;
   no call met an empty frontier.
   */
  lemma {:induction false} HistoryIsValid(states: seq<Structure>, draws: seq<nat>)
    requires IsHistory(states, draws)
    ensures Valid(states[|draws|])
    ensures |states[|draws|].cubes| == |draws| && |Occupied(states[|draws|])| == |draws| + 1
    ensures Distinct(Occupied(states[|draws|]))
    decreases |draws|
  {
    if draws == [] {
      NewIsValid();
    } else {
      var n := |draws| - 1;
      var before := states[..|draws|];
      assert |draws[..n]| == n && before[n] == states[n];
      HistoryIsValid(before, draws[..n]);
      assert Valid(states[n]) && |states[n].cubes| == n;
      assert Grows(states[n], draws[n], states[|draws|]);
      GrowsKeepsValid(states[n], draws[n], states[|draws|]);
    }
  }

  /** One `addCube` call keeps the structure valid and places one more cube. */
  lemma GrowsKeepsValid(p: Structure, draw: nat, s: Structure)
    requires Valid(p) && Grows(p, draw, s)
    ensures Valid(s) && |s.cubes| == |p.cubes| + 1
    ensures |Occupied(s)| == |p.cubes| + 2
    ensures Distinct(Occupied(s))
  {
    AddCubeKeepsValid(p, draw);
    DistinctAppend(s.cubes, s.latest);
  }

}
